=== FILE: README.md ===
# tldr-pdf-bedrock in Dafny

A model of the core of `app.py`, a Streamlit page that cuts an uploaded PDF
into groups of four pages, extracts each group's text, asks a Mistral model
on Amazon Bedrock for a one-page Japanese Beamer slide about it, repairs the
answer, and appends it to `Output.tex`.

The model has six modules:

- `Text` is Python's `str.find`, `str.count` and `re.findall` on literal needles.
  `Find` is the first index or -1. `CountNonOverlapping` resumes the scan after
  each match, as Python does. `Count` counts every index. The two counts agree
  on every needle the program uses.
- `Fragment` is `append_slides_to_tex_file`. Trimming uses `Trim`, the
  completeness check `IsSlideComplete`, and completion `CompleteSlide`.
  `Escape` says how a needle spells the tag's backslash. `RepairAsWritten` is
  the code as written. `Repair` is the evidently intended repairer (see
  Findings).
- `Truncation` looks at one answer shape: a slide cut off inside its block.
  It compares the two repairers on every answer of that shape whose chatter,
  title, key message, heading and item hold no backslash.
- `Prompt` covers `get_model_response_old` and `generate_japanese_slides_bedrock`:
  - the `<s>[INST]…[/INST]` wrapping;
  - the slide prompt template;
  - the `converse` request;
  - the `ERROR: …` text for a failed call;
  - reading the reply.
- `Partition` covers the `for i in range(0, num_pages, PAGES)` loop of `main`:
  the page groups, the pages handed to the PDF writer, and the text
  extraction.
- `Pipeline` is the whole run. `Run` is a fold over the group texts. `RunLoop`
  is the same loop written as `main` writes it.

The Bedrock client is a parameter `converse: Request -> Reply`. The PDF is the
sequence of its pages' extracted texts. The output file is the string it ends
up holding.

Where the documented intent and the code differ, the model follows the code:

- A reply without the expected shape aborts the run. Reading the reply at
  app.py:80 is outside the `try`. `Pipeline.Outcome.Aborted` keeps what was
  written up to then.
- The completion step counts doubled backslashes. So the cut-off slide is not
  closed by the program as written. See Findings.
- The page text says "2ページ単位" (app.py:197), but groups are `PAGES = 4`
  pages (app.py:204).
- `complete_slide` has one `if` per environment, so it adds at most one
  closing line for each. An answer with two or more frames, blocks or lists
  left open is still unbalanced after repair, and repairing it again appends
  more. `Fragment.RepairClosesOneLevel` shows this for two open frames. For
  the intended repairer, balance and idempotence are proved only for answers
  with at most one unclosed level per environment. The repairer as written is
  idempotent only on answers without `\\` (`Fragment.RepairAsWrittenIdempotent`).
  `Fragment.RepairAsWrittenNotIdempotent` shows that it appends another
  `\end{itemize}` on every pass to `\begin{frame}\\begin{itemize}`, an
  answer with one unclosed level per environment.

## Model

| member | source | states |
|---|---|---|
| Text.Find | app.py:179 | the result is -1 exactly when the needle occurs nowhere; otherwise the needle occurs there and at no earlier index |
| Text.FindCount | app.py:179-180 | `find` reports -1 exactly when the needle's count is zero |
| Text.CountNonOverlapping | app.py:152-157 | Python's count of a literal needle; `CountNonOverlappingBounds` and `CountNonOverlappingIsCount` state what it counts |
| Text.CountNonOverlappingBounds | app.py:152-157 | Python's count of a literal needle is zero exactly when the needle occurs at no index, and the matches it counts fit side by side in the string |
| Text.CountNonOverlappingIsCount | app.py:152-157 | Python's count, which resumes after each match, equals the count of every index at which the needle starts, for any needle whose last character is unique in it |
| Fragment.OpensCloses | app.py:170-175 | the tag counts of `is_slide_complete` and `complete_slide` are occurrence counts of the tag's needle in the chosen spelling |
| Fragment.IsSlideComplete | app.py:147-163 | the completeness check; `SlideCompleteIff` states it with tags counted at every index |
| Fragment.SlideCompleteIff | app.py:147-163 | a slide is complete exactly when, for frame, block and itemize, its `\begin` and `\end` tags occur equally often |
| Fragment.CloseIfOpen | app.py:170-175 | one `if` of `complete_slide`; `AppendClosingCounts` and `CloseIfOpenKeeps` state that it appends at most its own closing line and leaves the other environments' status alone |
| Fragment.CompleteSlide | app.py:165-176 | `complete_slide`; `CompleteSlideAppends` states that it appends exactly the closings of the open environments, in itemize, block, frame order |
| Fragment.RepairWith | app.py:178-185 | the steps of `append_slides_to_tex_file` before writing, for either tag spelling; `RepairWithAppends` states that it trims and then appends only the closings the completion step sees open |
| Fragment.RepairAsWritten | app.py:138-185 | the repairer as written; `RepairAsWrittenIgnoresLatex` states that it appends nothing to LaTeX without doubled backslashes |
| Fragment.Repair | app.py:138-185 | the intended repairer; `RepairCounts`, `RepairBalances` and `RepairIdempotent` state what it adds and when the result balances |
| Fragment.Trim | app.py:178-181 | with no `\begin{frame}` the answer is kept whole; otherwise the result is the suffix starting at the first `\begin{frame}`, and no earlier one exists |
| Fragment.CompleteSlideAppends | app.py:165-176 | completion only appends: the text, then the closings of itemize, block and frame in that order, each present exactly when that environment's openings outnumber its closings in the text given |
| Fragment.CloseIfOpenKeeps | app.py:170-175 | appending one environment's closing line does not change whether another environment counts as open, so the three sequential `if`s decide on the original text |
| Fragment.AppendClosingCounts | app.py:171-175 | a closing line adds no opening tag, and adds one closing only to its own environment's single-backslash count |
| Fragment.RepairWithAppends | app.py:183-185 | a balanced trimmed answer is written unchanged; an unbalanced one gets exactly the closings of the environments the completion step sees open |
| Fragment.RepairCounts | app.py:165-185 | with single-backslash counting, repair keeps every opening count and adds one closing to each open environment |
| Fragment.RepairBalances | app.py:143-185 | an answer in which every environment has zero or one more opening than closing comes out of the intended repair balanced |
| Fragment.TrimRepaired | app.py:178-185 | a repaired fragment is already trimmed: it starts at its frame or holds none |
| Fragment.RepairWithoutFrame | app.py:178-185 | an answer without `\begin{frame}` is repaired into text that still has none |
| Fragment.RepairIdempotent | app.py:138-185 | for every answer with at most one unclosed frame, block and itemize (extra closings allowed), repairing the repaired answer changes nothing |
| Fragment.RepairClosesOneLevel | app.py:170-175 | one `if` per environment closes one level only: with two frames open, the repaired answer is still unbalanced and repairing it again appends more |
| Fragment.RepairAsWrittenIgnoresLatex | app.py:170-176 | as written, an answer without two backslashes in a row is written trimmed and otherwise unchanged, whatever its balance |
| Fragment.ClosingsKeepCounts | app.py:171-175 | the closing lines the completion step appends change neither the doubled-backslash counts nor the single-backslash frame counts |
| Fragment.RepairAsWrittenIdempotent | app.py:165-185 | as written, repairing an answer without two backslashes in a row twice gives the same text as repairing it once |
| Fragment.RepairAsWrittenKeepsAppending | app.py:170-185 | as written, an answer with a doubled-backslash environment left open and an unbalanced frame but no open doubled frame is changed again by every repair |
| Fragment.RepairAsWrittenNotIdempotent | app.py:170-185 | as written, repairing `\begin{frame}\\begin{itemize}` twice gives a different text from repairing it once |
| Text.CountWithoutChar | app.py:152-157 | Python's count finds no occurrence of a needle holding a character the string lacks |
| Truncation.TrimChatter | app.py:179-181 | text before the frame is dropped from a cut-off slide |
| Truncation.TruncatedCounts | app.py:152-157 | a cut-off slide opens frame, block and itemize once each and closes only itemize |
| Truncation.RepairClosesBlockAndFrame | app.py:165-176 | an answer opening all three environments and closing only the list gets the block's and then the frame's closing line |
| Truncation.TruncatedNoDoubledBackslash | app.py:170-175 | a cut-off slide holds none of the doubled-backslash needles the completion step searches for |
| Truncation.TruncatedAsWritten | app.py:165-185 | as written, a cut-off slide is written without closings and stays unbalanced |
| Truncation.TruncatedRepaired | app.py:138-185 | the intended repair writes the cut-off slide, minus its chatter, followed by closings for block and frame, and the result is balanced |
| Prompt.Wrap | app.py:50-52 | a prompt holding `<s>` anywhere is sent unchanged; any other prompt is sent between `<s>[INST]` and `[/INST]`, intact |
| Prompt.WrapHasMarker | app.py:51-52 | whatever the prompt, what is sent contains `<s>` |
| Prompt.WrapIdempotent | app.py:51-52 | wrapping twice equals wrapping once |
| Prompt.SlidePrompt | app.py:99-121 | the prompt is the fixed head, the group's text verbatim, then the fixed tail |
| Prompt.SlidePromptInjective | app.py:99-121 | different group texts give different prompts |
| Prompt.SlidePromptMarkers | app.py:99-121 | the template adds no `<s>`: the prompt holds as many as the group's text |
| Prompt.SlidePromptWrapped | app.py:51-52 | the slide prompt is wrapped exactly when the group's text holds no `<s>` |
| Prompt.GenerateSlidesSends | app.py:123-133 | the text sent is the slide prompt inside the instruction tags, or bare when the group's text holds `<s>` |
| Prompt.MakeRequest | app.py:54-74 | the request carries the model id and token limit, one user turn, and a text holding `<s>` |
| Prompt.RequestIgnoresTopK | app.py:63-67 | the request does not depend on `top_k` |
| Prompt.ErrorText | app.py:75-76 | a failed call becomes a text that starts with `ERROR: Can't invoke '` and ends with the reason |
| Prompt.ErrorTextNamesModel | app.py:76 | a quote-free model id can be read back from the error text, up to the first quote |
| Prompt.Extract | app.py:69-82 | an exception gives the error text; content whose first piece is text gives that text; any other reply gives nothing (the program raises) |
| Prompt.GenerateSlides | app.py:87-133 | one group's call gives nothing exactly when the reply to its request is unreadable |
| Partition.Range | app.py:252 | `range(lo, hi)`: its length is `hi - lo`, and entry `k` is `lo + k` |
| Partition.GroupsFrom | app.py:240 | from start index `i`, group `k` has number `number + k`, starts at `i + k*size` and ends at the smaller of `size` pages later and the end; the groups reach past the last page and no further |
| Partition.Groups | app.py:232-273 | group `k` is numbered `k + 1` and covers `[k*size, min(k*size + size, n))`; there are `ceil(n/size)` groups, none for an empty document |
| Partition.GroupsTile | app.py:240-252 | the groups start at page 0 and end at page n; each starts where the previous one ends; each is non-empty and at most `size` long; all but the last are exactly `size` long |
| Partition.GroupsCover | app.py:240-252 | every page lies in exactly one group |
| Partition.GroupsExamples | app.py:204 | two pages make one group; nine pages make groups of four, four and one |
| Partition.WriterPages | app.py:241-244 | the pages the inner loop hands to the PDF writer; `WriterPagesRange` states they are exactly `range(i, min(i + size, n))` |
| Partition.WriterPagesRange | app.py:241-244 | the group's PDF holds exactly the pages whose text is extracted |
| Partition.JoinPages | app.py:251-253 | the extracted text of a run of pages; `ExtractText` states that the extraction loop builds it, and `JoinPagesAppend` that it distributes over runs |
| Partition.GroupText | app.py:250-253 | the text of one group; `GroupTextsCoverDocument` states that the group texts together are the whole document's text |
| Partition.GroupTexts | app.py:240-253 | one text per group, in group order, each the text of that group's pages |
| Partition.JoinPagesAppend | app.py:251-253 | extracting two runs of pages one after the other gives the concatenation of their texts |
| Partition.ExtractText | app.py:250-253 | the loop's text is each page's text followed by a line break, in page order, for the group's pages |
| Partition.DocumentTexts | app.py:240-253 | group `k`'s text is the text of pages `k*4` up to `k*4 + 4` or the end |
| Partition.DocumentTextAt | app.py:250-253 | the group text at index `g` is what the extraction loop collects from page `4g` |
| Partition.GroupTextsCoverDocument | app.py:240-253 | the group texts, put together in order, are the text of every page in order |
| Pipeline.Entry | app.py:188-190 | what one call writes; `ProcessStep` states that an answered group appends exactly its entry |
| Pipeline.Entries | app.py:188-190 | the entries of a run of answers, in order; `EntriesAppend` states that they concatenate |
| Pipeline.Replies | app.py:264-265 | when every group is answered, one reply per group, in group order, each the answer to that group's text |
| Pipeline.Process | app.py:240-273 | processing never refuses; what the file held before is always a prefix of what it holds after |
| Pipeline.ProcessStep | app.py:264-271 | an answered group appends its repaired answer and a blank line, and the loop goes on |
| Pipeline.ProcessPrefix | app.py:240-273 | after any run of answered groups, the file holds their entries in group order and the loop continues with the rest |
| Pipeline.ProcessCompletes | app.py:232-273 | when every reply is readable, the file is what it held before followed by every group's entry in group order |
| Pipeline.ProcessAborts | app.py:79-80 | the first unreadable reply stops the loop; the file then holds the entries of the groups before it |
| Pipeline.FirstUnread | app.py:240-264 | the group whose unreadable reply stops the loop; every group before it was answered |
| Pipeline.Run | app.py:219-238 | a document of fewer than two pages is refused before the run's folder and `Output.tex` are created; otherwise the file starts with its header line |
| Pipeline.RunContents | app.py:232-273 | a run finishes exactly when every reply is readable, and then the file is the header plus every group's entry; otherwise the file is the header plus the entries before the first unreadable reply |
| Pipeline.FailedCallContinues | app.py:75-76 | a call that raises puts its error text where the answer would be, and the run goes on to the next group |
| Pipeline.ErrorTextUnrepaired | app.py:138-190 | an error text without backslashes passes through either repairer unchanged |
| Pipeline.EntriesAppend | app.py:188-190 | the entries of two runs of answers are the entries of the first followed by those of the second |
| Pipeline.RunAsWritten | app.py:195-273 | the run as the program does it, with the default configuration and the as-written repairer; `RunContents` states its outcome and file contents |
| Pipeline.RunRepaired | app.py:195-273 | the same run with the intended repairer; `RunContents` states its outcome and file contents |
| Pipeline.RunLoop | app.py:232-273 | the loop over `i = 0, 4, 8, …` with the group counter computes the same outcome as the fold, and refuses documents of fewer than two pages |

## Left out

- The Streamlit page is presentation only: titles, the uploader, buttons, spinners, and the echo of texts and answers.
- The `.pdf` name check (app.py:209, 277-278) rejects non-PDF uploads before any processing; it is left out with the uploader.
- PyPDF2 is a third-party library; a page is modelled only by its extracted text.
- Creating the `uploads` and `output` folders and saving the uploaded PDF (app.py:205-215) happen before the page check, whatever the page count; they are file I/O and are not modelled.
- Reading the PDF and writing the per-group `.pdf` and `.txt` side files is file I/O. The pages a group's PDF receives are modelled (`Partition.WriterPages`); the files themselves are not.
- The upload and output folders, and `Output.tex` as a file, are file I/O. The file is the string it would hold.
- `generate_random_folder_name` depends on randomness and states nothing checkable.
- The boto3 client is a network call. `converse` is a parameter, and its three possible outcomes are the `Reply` datatype.
- The module-level region and credentials are configuration.
- `converse` is a pure function of the request. Two groups with the same text send the same request and so get the same reply. The model cannot express sampling randomness (`top_p` and `temperature`) or a transient failure, such as throttling, that hits one of two identical requests. The proved properties hold for every such function; runs in which identical requests get different replies are not covered.
- `top_p` and `temperature` are floats that pass through. `Config` leaves them out.
- The message list wraps the prompt text in a role and content structure. `Request` keeps only the role and the text.
- `get_model_response_old(only_text=False)` returns the raw response. The program never calls it that way.
- `slides_results` is collected but never read. It is kept as `answers` in the outcome.
- Prompt.ErrorText: Python's `str(e)` of the exception is not modelled. The reason is any string.
- Pipeline.Run: does not state the per-group side files or the on-screen messages, for the reasons above.

## Findings

| source | as written | input that shows it | evidently intended | confidence | as-written member | corrected member |
|---|---|---|---|---|---|---|
| app.py:170-175 | `complete_slide` counts `r"\\begin{itemize}"` and similar needles. In a raw string that is two backslashes, so ordinary LaTeX never matches and nothing is appended. | `preamble text \begin{frame}{T}\textbf{M}\begin{block}{B}\begin{itemize}\item x\end{itemize}`: `is_slide_complete` reports an imbalance, yet the written fragment stays without `\end{block}` and `\end{frame}` | count the same single-backslash tags that `is_slide_complete` counts, so the block and then the frame get closed | high, not executed | Truncation.TruncatedAsWritten | Truncation.TruncatedRepaired |

=== FILE: fragment.dfy ===
/** The fragment repairer of `append_slides_to_tex_file`: cut the model's
    answer down to its first `\begin{frame}`, check that frame, block and
    itemize tags balance, and append closing lines when they do not. */
module Fragment {
  import opened Text

  /** The three environments whose balance is checked. */
  datatype Tag = Itemize | Block | Frame

  /** How a tag's leading backslash is spelled in a search needle. `Single`
      is LaTeX's own `\begin{frame}`: what the regular expression
      `\\begin{frame}` matches and what the raw string `\begin{frame}` given
      to `str.find` holds. `Double` is what the raw string
      `\\begin{itemize}` given to `str.count` holds: two backslashes. */
  datatype Escape = Single | Double

  /** Two backslashes in a row: the start of every `Double` needle. */
  const RawSlashes: string := "\\\\"

  function Begin(t: Tag, e: Escape): string {
    match (t, e)
    case (Itemize, Single) => "\\begin{itemize}"
    case (Block, Single) => "\\begin{block}"
    case (Frame, Single) => "\\begin{frame}"
    case (Itemize, Double) => "\\\\begin{itemize}"
    case (Block, Double) => "\\\\begin{block}"
    case (Frame, Double) => "\\\\begin{frame}"
  }

  function End(t: Tag, e: Escape): string {
    match (t, e)
    case (Itemize, Single) => "\\end{itemize}"
    case (Block, Single) => "\\end{block}"
    case (Frame, Single) => "\\end{frame}"
    case (Itemize, Double) => "\\\\end{itemize}"
    case (Block, Double) => "\\\\end{block}"
    case (Frame, Double) => "\\\\end{frame}"
  }

  /** The line appended to close an environment: a newline, then `\end{...}`. */
  function Closing(t: Tag): string {
    "\n" + End(t, Single)
  }

  /** Number of opening tags of `t`, counted as Python's `str.count` and
      `re.findall` count them. */
  function Opens(text: string, t: Tag, esc: Escape): nat
  {
    CountNonOverlapping(text, Begin(t, esc))
  }

  function Closes(text: string, t: Tag, esc: Escape): nat
  {
    CountNonOverlapping(text, End(t, esc))
  }

  /** `is_slide_complete`: every one of the three environments has as many
      single-backslash openings as closings. */
  predicate IsSlideComplete(text: string) {
    && Opens(text, Frame, Single) == Closes(text, Frame, Single)
    && Opens(text, Block, Single) == Closes(text, Block, Single)
    && Opens(text, Itemize, Single) == Closes(text, Itemize, Single)
  }

  /** The completeness check, stated with tags counted at every index: a
      slide is complete exactly when each environment's `\begin` and `\end`
      tags occur equally often. */
  lemma SlideCompleteIff(text: string)
    ensures IsSlideComplete(text)
            <==> forall u :: Count(text, Begin(u, Single)) == Count(text, End(u, Single))
  {
    OpensCloses(text, Frame, Single);
    OpensCloses(text, Block, Single);
    OpensCloses(text, Itemize, Single);
  }

  /** One `if` of `complete_slide`: append the closing line of `t` when its
      openings, counted with escape `esc`, outnumber its closings. */
  function CloseIfOpen(text: string, t: Tag, esc: Escape): string
  {
    if Opens(text, t, esc) > Closes(text, t, esc) then text + Closing(t) else text
  }

  /** `complete_slide`: the three checks in the order itemize, block, frame,
      each one looking at the text the previous one produced. */
  function CompleteSlide(text: string, esc: Escape): string
  {
    CloseIfOpen(CloseIfOpen(CloseIfOpen(text, Itemize, esc), Block, esc), Frame, esc)
  }

  /** The trimming step: keep the answer from its first `\begin{frame}`
      on, or all of it when there is none. */
  function Trim(raw: string): (r: string)
    ensures (forall i :: !OccursAt(raw, Begin(Frame, Single), i)) ==> r == raw
    ensures (exists i :: OccursAt(raw, Begin(Frame, Single), i)) ==>
              && StartsWith(r, Begin(Frame, Single))
              && |r| <= |raw| && raw[|raw| - |r|..] == r
              && forall i :: 0 <= i < |raw| - |r| ==> !OccursAt(raw, Begin(Frame, Single), i)
  {
    var k := Find(raw, Begin(Frame, Single));
    if k != -1 then raw[k..] else raw
  }

  /** The text `append_slides_to_tex_file` writes for one answer, with the
      completion step counting tags with escape `esc`. */
  function RepairWith(raw: string, esc: Escape): string
  {
    var text := Trim(raw);
    if IsSlideComplete(text) then text else CompleteSlide(text, esc)
  }

  /** The repairer as the source writes it: completion counts two backslashes. */
  function RepairAsWritten(raw: string): string {
    RepairWith(raw, Double)
  }

  /** The repairer as evidently intended: completion counts the same
      single-backslash tags that the completeness check counts. */
  function Repair(raw: string): string {
    RepairWith(raw, Single)
  }

  /** Reference definition of what completion may add: for each environment
      that is open, its closing line, in the order itemize, block, frame. */
  function Closings(itemize: bool, block: bool, frame: bool): string {
    (if itemize then Closing(Itemize) else "")
    + (if block then Closing(Block) else "")
    + (if frame then Closing(Frame) else "")
  }

  /** Environment `t` has more openings than closings in `text`. */
  predicate IsOpen(text: string, t: Tag, esc: Escape)
  {
    Opens(text, t, esc) > Closes(text, t, esc)
  }

  // ---------------------------------------------------------------------
  // Facts about the tag needles

  /** Every needle starts with a backslash, holds no newline, and ends with
      a brace found nowhere else in it. Each of these facts is a case split
      over six string literals, so the proof is spread over the lemmas below,
      one fact each, which keeps every verification condition small. */
  lemma NeedleShape(t: Tag, esc: Escape)
    ensures LastCharUnique(Begin(t, esc)) && LastCharUnique(End(t, esc))
    ensures '\n' !in Begin(t, esc) && '\n' !in End(t, esc)
    ensures |Begin(t, esc)| > 5 && |End(t, esc)| > 5
    ensures Begin(t, esc)[0] == '\\' && End(t, esc)[0] == '\\'
    ensures Begin(t, esc)[1] != 'e'
    ensures esc == Double ==> End(t, esc)[1] == '\\'
    ensures esc == Single ==> End(t, esc)[1] == 'e' && '\\' !in End(t, esc)[1..]
  {
    NeedleLast(t, esc);
    NeedleHead(t, esc);
    NeedleNoNewline(t, esc);
    if esc == Single {
      EndShape(t);
    }
  }

  lemma NeedleLast(t: Tag, esc: Escape)
    ensures LastCharUnique(Begin(t, esc)) && LastCharUnique(End(t, esc))
  {
    match (t, esc)
    case (Itemize, Single) =>
    case (Block, Single) =>
    case (Frame, Single) =>
    case (Itemize, Double) =>
    case (Block, Double) =>
    case (Frame, Double) =>
  }

  lemma NeedleHead(t: Tag, esc: Escape)
    ensures |Begin(t, esc)| > 5 && |End(t, esc)| > 5
    ensures Begin(t, esc)[0] == '\\' && End(t, esc)[0] == '\\'
    ensures Begin(t, esc)[1] != 'e'
    ensures esc == Double ==> End(t, esc)[1] == '\\'
  {
    match (t, esc)
    case (Itemize, Single) =>
    case (Block, Single) =>
    case (Frame, Single) =>
    case (Itemize, Double) =>
    case (Block, Double) =>
    case (Frame, Double) =>
  }

  lemma NeedleNoNewline(t: Tag, esc: Escape)
    ensures '\n' !in Begin(t, esc) && '\n' !in End(t, esc)
  {
    match (t, esc)
    case (Itemize, Single) =>
    case (Block, Single) =>
    case (Frame, Single) =>
    case (Itemize, Double) =>
    case (Block, Double) =>
    case (Frame, Double) =>
  }

  /** A single-backslash closing tag has no backslash after its first character. */
  lemma EndShape(t: Tag)
    ensures End(t, Single)[1] == 'e' && '\\' !in End(t, Single)[1..]
  {
    match t
    case Itemize =>
    case Block =>
    case Frame =>
  }

  /** A single-backslash opening tag has no backslash after its first character. */
  lemma BeginShape(t: Tag)
    ensures Begin(t, Single)[1] == 'b' && '\\' !in Begin(t, Single)[1..]
  {
    match t
    case Itemize =>
    case Block =>
    case Frame =>
  }

  /** Every needle ends with a brace found nowhere else in it. */
  lemma NeedleEnds(t: Tag, esc: Escape)
    ensures '}' !in Begin(t, esc)[..|Begin(t, esc)| - 1] && '}' !in End(t, esc)[..|End(t, esc)| - 1]
  {
    match (t, esc)
    case (Itemize, Single) =>
    case (Block, Single) =>
    case (Frame, Single) =>
    case (Itemize, Double) =>
    case (Block, Double) =>
    case (Frame, Double) =>
  }

  /** The single-backslash closings of different environments differ right
      after `\end{`. */
  lemma EndsDiffer(t: Tag, u: Tag)
    requires t != u
    ensures End(t, Single)[5] != End(u, Single)[5]
  {
  }

  /** Python's counts of a tag agree with the count at every index. */
  lemma OpensCloses(text: string, t: Tag, esc: Escape)
    ensures Opens(text, t, esc) == Count(text, Begin(t, esc))
    ensures Closes(text, t, esc) == Count(text, End(t, esc))
  {
    NeedleShape(t, esc);
    CountNonOverlappingIsCount(text, Begin(t, esc));
    CountNonOverlappingIsCount(text, End(t, esc));
  }

  /** A closing line holds exactly one tag: the single-backslash closing of
      its own environment. */
  lemma ClosingHolds(t: Tag, u: Tag, esc: Escape)
    ensures Count(Closing(t), Begin(u, esc)) == 0
    ensures Count(Closing(t), End(u, esc)) == (if esc == Single && t == u then 1 else 0)
  {
    NeedleShape(u, esc);
    NeedleShape(t, Single);
    ClosingHoldsNo(t, Begin(u, esc));
    ClosingHoldsEnd(t, u, esc);
  }

  /** A closing line holds no needle whose second character is not `e`. */
  lemma ClosingHoldsNo(t: Tag, n: string)
    requires |n| > 1 && n[0] == '\\' && n[1] != 'e' && '\n' !in n
    ensures Count(Closing(t), n) == 0
  {
    var e := End(t, Single);
    NeedleShape(t, Single);
    CountConcatAt("\n", e, n);
    CountLeadingOnly(e, n);
    DifferAt(e, n, 1);
  }

  lemma ClosingHoldsEnd(t: Tag, u: Tag, esc: Escape)
    ensures Count(Closing(t), End(u, esc)) == (if esc == Single && t == u then 1 else 0)
  {
    var e := End(t, Single);
    var n := End(u, esc);
    NeedleShape(u, esc);
    NeedleShape(t, Single);
    if esc == Double {
      ClosingHoldsNo(t, n);
    } else {
      CountConcatAt("\n", e, n);
      CountLeadingOnly(e, n);
      if t != u {
        EndsDiffer(t, u);
        DifferAt(e, n, 5);
      }
    }
  }

  /** Appending a closing line leaves every count alone except the
      single-backslash closings of its own environment, which grow by one. */
  lemma AppendClosingCounts(text: string, t: Tag, u: Tag, esc: Escape)
    ensures Opens(text + Closing(t), u, esc) == Opens(text, u, esc)
    ensures Closes(text + Closing(t), u, esc)
            == Closes(text, u, esc) + (if esc == Single && t == u then 1 else 0)
  {
    NeedleShape(u, esc);
    OpensCloses(text, u, esc);
    OpensCloses(text + Closing(t), u, esc);
    CountConcatAt(text, Closing(t), Begin(u, esc));
    CountConcatAt(text, Closing(t), End(u, esc));
    ClosingHolds(t, u, esc);
  }

  /** Completion only appends, and what it appends is, in order, the closing
      line of each environment that is open in the text it was given. Later
      checks are not disturbed by earlier appends. */
  lemma CompleteSlideAppends(text: string, esc: Escape)
    ensures CompleteSlide(text, esc)
            == text + Closings(IsOpen(text, Itemize, esc), IsOpen(text, Block, esc), IsOpen(text, Frame, esc))
  {
    var t1 := CloseIfOpen(text, Itemize, esc);
    var t2 := CloseIfOpen(t1, Block, esc);
    var a := if IsOpen(text, Itemize, esc) then Closing(Itemize) else "";
    var b := if IsOpen(text, Block, esc) then Closing(Block) else "";
    var c := if IsOpen(text, Frame, esc) then Closing(Frame) else "";
    assert t1 == text + a;
    CloseIfOpenKeeps(text, Itemize, Block, esc);
    assert t2 == text + a + b;
    CloseIfOpenKeeps(text, Itemize, Frame, esc);
    CloseIfOpenKeeps(t1, Block, Frame, esc);
    assert CompleteSlide(text, esc) == text + a + b + c;
    assert Closings(IsOpen(text, Itemize, esc), IsOpen(text, Block, esc), IsOpen(text, Frame, esc)) == a + b + c;
    SeqAssoc(text, a, b, c);
  }

  /** Closing one environment does not change whether another one is open. */
  lemma CloseIfOpenKeeps(text: string, t: Tag, u: Tag, esc: Escape)
    requires t != u
    ensures IsOpen(CloseIfOpen(text, t, esc), u, esc) == IsOpen(text, u, esc)
  {
    AppendClosingCounts(text, t, u, esc);
  }

  /** The repairer writes the trimmed answer unchanged when its tags balance,
      and otherwise the trimmed answer followed by the closing lines of the
      environments the completion step sees open. */
  lemma RepairWithAppends(raw: string, esc: Escape)
    ensures IsSlideComplete(Trim(raw)) ==> RepairWith(raw, esc) == Trim(raw)
    ensures !IsSlideComplete(Trim(raw)) ==>
              var t := Trim(raw);
              RepairWith(raw, esc)
              == t + Closings(IsOpen(t, Itemize, esc), IsOpen(t, Block, esc), IsOpen(t, Frame, esc))
  {
    CompleteSlideAppends(Trim(raw), esc);
  }

  /** With the intended single-backslash counts, repair adds one closing to
      each environment that was open and touches nothing else. */
  lemma RepairCounts(raw: string, u: Tag)
    ensures Opens(Repair(raw), u, Single) == Opens(Trim(raw), u, Single)
    ensures Closes(Repair(raw), u, Single)
            == Closes(Trim(raw), u, Single) + (if IsOpen(Trim(raw), u, Single) then 1 else 0)
  {
    var t := Trim(raw);
    if !IsSlideComplete(t) {
      var t1 := CloseIfOpen(t, Itemize, Single);
      var t2 := CloseIfOpen(t1, Block, Single);
      AppendClosingCounts(t, Itemize, u, Single);
      AppendClosingCounts(t1, Block, u, Single);
      AppendClosingCounts(t2, Frame, u, Single);
      CompleteSlideAppends(t, Single);
    }
  }

  /** An answer in which every environment has zero or one more opening
      than closing comes out of the intended repair balanced. */
  lemma RepairBalances(raw: string)
    requires forall u :: Closes(Trim(raw), u, Single) <= Opens(Trim(raw), u, Single) <= Closes(Trim(raw), u, Single) + 1
    ensures IsSlideComplete(Repair(raw))
  {
    RepairCounts(raw, Itemize);
    RepairCounts(raw, Block);
    RepairCounts(raw, Frame);
  }

  /** Appending closing lines never adds an opening tag. */
  lemma ClosingsKeepOpens(text: string, i: bool, b: bool, f: bool, u: Tag, esc: Escape)
    ensures Opens(text + Closings(i, b, f), u, esc) == Opens(text, u, esc)
  {
    var a1 := if i then Closing(Itemize) else "";
    var a2 := if b then Closing(Block) else "";
    var a3 := if f then Closing(Frame) else "";
    SeqAssoc(text, a1, a2, a3);
    AppendClosingCounts(text, Itemize, u, esc);
    AppendClosingCounts(text + a1, Block, u, esc);
    AppendClosingCounts(text + a1 + a2, Frame, u, esc);
    assert text + a1 == (if i then text + Closing(Itemize) else text);
    assert text + a1 + a2 == (if b then (text + a1) + Closing(Block) else text + a1);
    assert text + a1 + a2 + a3 == (if f then (text + a1 + a2) + Closing(Frame) else text + a1 + a2);
  }

  /** A repaired fragment is its own trimming: it either starts with
      `\begin{frame}` or holds none at all. */
  lemma TrimRepaired(raw: string, esc: Escape)
    ensures Trim(RepairWith(raw, esc)) == RepairWith(raw, esc)
  {
    var t := Trim(raw);
    var r := RepairWith(raw, esc);
    var bf := Begin(Frame, Single);
    RepairWithAppends(raw, esc);
    var x :| r == t + x;
    if exists i :: OccursAt(raw, bf, i) {
      assert r[..|bf|] == t[..|bf|];
      TrimAtFrame(r);
    } else {
      RepairWithoutFrame(raw, esc);
      TrimWithoutFrame(r);
    }
  }

  /** An answer without `\begin{frame}` is repaired into text without one. */
  lemma RepairWithoutFrame(raw: string, esc: Escape)
    requires forall i :: !OccursAt(raw, Begin(Frame, Single), i)
    ensures Count(RepairWith(raw, esc), Begin(Frame, Single)) == 0
  {
    var t := Trim(raw);
    var r := RepairWith(raw, esc);
    RepairWithAppends(raw, esc);
    CountZeroIff(raw, Begin(Frame, Single));
    OpensCloses(raw, Frame, Single);
    OpensCloses(r, Frame, Single);
    if !IsSlideComplete(t) {
      ClosingsKeepOpens(t, IsOpen(t, Itemize, esc), IsOpen(t, Block, esc), IsOpen(t, Frame, esc), Frame, Single);
    }
  }

  /** Text that already starts at its frame is not trimmed. */
  lemma TrimAtFrame(r: string)
    requires StartsWith(r, Begin(Frame, Single))
    ensures Trim(r) == r
  {
    assert r[0..] == r;
    assert OccursAt(r, Begin(Frame, Single), 0);
  }

  /** Text without a frame is not trimmed. */
  lemma TrimWithoutFrame(r: string)
    requires Count(r, Begin(Frame, Single)) == 0
    ensures Trim(r) == r
  {
    CountZeroIff(r, Begin(Frame, Single));
  }

  /** Idempotence of the intended repair on every answer with at most one
      unclosed frame, block and itemize; stray closings are allowed, since
      completion never adds to an environment that is not open. */
  lemma RepairIdempotent(raw: string)
    requires forall u :: Opens(Trim(raw), u, Single) <= Closes(Trim(raw), u, Single) + 1
    ensures Repair(Repair(raw)) == Repair(raw)
  {
    var r := Repair(raw);
    forall u: Tag ensures !IsOpen(r, u, Single) {
      RepairCounts(raw, u);
    }
    TrimRepaired(raw, Single);
    RepairWithAppends(r, Single);
  }

  /** One `if` per environment closes one level only: with two frames left
      open the repaired answer is still unbalanced, and repairing it again
      appends another closing. */
  lemma RepairClosesOneLevel(raw: string)
    requires Opens(Trim(raw), Frame, Single) == Closes(Trim(raw), Frame, Single) + 2
    ensures !IsSlideComplete(Repair(raw))
    ensures Repair(Repair(raw)) != Repair(raw)
  {
    var r := Repair(raw);
    RepairCounts(raw, Frame);
    assert IsOpen(r, Frame, Single);
    TrimRepaired(raw, Single);
    RepairWithAppends(r, Single);
    assert |Closings(IsOpen(r, Itemize, Single), IsOpen(r, Block, Single), true)| > 0;
  }

  /** The source's completion step does nothing to ordinary LaTeX: without a
      doubled backslash no double-backslash tag can be counted, so what is
      written is the trimmed answer, balanced or not. */
  lemma RepairAsWrittenIgnoresLatex(raw: string)
    requires Count(Trim(raw), RawSlashes) == 0
    ensures RepairAsWritten(raw) == Trim(raw)
  {
    var t := Trim(raw);
    forall u: Tag ensures !IsOpen(t, u, Double) {
      NeedleShape(u, Double);
      OpensCloses(t, u, Double);
      CountPrefixAbsent(t, RawSlashes, Begin(u, Double));
    }
    RepairWithAppends(raw, Double);
  }

  /** Without a doubled backslash the repairer as written is idempotent: it
      writes the trimmed answer, and that is already trimmed. */
  lemma RepairAsWrittenIdempotent(raw: string)
    requires Count(Trim(raw), RawSlashes) == 0
    ensures RepairAsWritten(RepairAsWritten(raw)) == RepairAsWritten(raw)
  {
    RepairAsWrittenIgnoresLatex(raw);
    TrimRepaired(raw, Double);
    RepairAsWrittenIgnoresLatex(RepairAsWritten(raw));
  }

  /** Closing lines for itemize and block, the only ones the repairer as
      written appends to an answer whose frame it does not see open, change
      neither the doubled-backslash counts nor the single-backslash counts
      of the frame. */
  lemma ClosingsKeepCounts(text: string, i: bool, b: bool, u: Tag, esc: Escape)
    requires esc == Double || u == Frame
    ensures Opens(text + Closings(i, b, false), u, esc) == Opens(text, u, esc)
    ensures Closes(text + Closings(i, b, false), u, esc) == Closes(text, u, esc)
  {
    var a1 := if i then Closing(Itemize) else "";
    var a2 := if b then Closing(Block) else "";
    assert Closings(i, b, false) == a1 + a2 + "";
    assert text + Closings(i, b, false) == (text + a1) + a2;
    var t1 := text + a1;
    if i {
      AppendClosingCounts(text, Itemize, u, esc);
    } else {
      assert t1 == text;
    }
    if b {
      AppendClosingCounts(t1, Block, u, esc);
    } else {
      assert t1 + a2 == t1;
    }
  }

  /** As written, an answer whose frame stays unbalanced while some
      environment counts as open in the doubled spelling is never settled:
      every repair appends another closing line and none for the frame. */
  lemma RepairAsWrittenKeepsAppending(raw: string, u: Tag)
    requires IsOpen(Trim(raw), u, Double)
    requires !IsOpen(Trim(raw), Frame, Double)
    requires Opens(Trim(raw), Frame, Single) != Closes(Trim(raw), Frame, Single)
    ensures RepairAsWritten(RepairAsWritten(raw)) != RepairAsWritten(raw)
  {
    var t := Trim(raw);
    var r := RepairAsWritten(raw);
    RepairWithAppends(raw, Double);
    assert r == t + Closings(IsOpen(t, Itemize, Double), IsOpen(t, Block, Double), false);
    ClosingsKeepCounts(t, IsOpen(t, Itemize, Double), IsOpen(t, Block, Double), u, Double);
    ClosingsKeepCounts(t, IsOpen(t, Itemize, Double), IsOpen(t, Block, Double), Frame, Double);
    ClosingsKeepCounts(t, IsOpen(t, Itemize, Double), IsOpen(t, Block, Double), Frame, Single);
    assert IsOpen(r, u, Double) && !IsOpen(r, Frame, Double);
    assert !IsSlideComplete(r);
    TrimRepaired(raw, Double);
    RepairWithAppends(r, Double);
    var c := Closings(IsOpen(r, Itemize, Double), IsOpen(r, Block, Double), false);
    assert u == Frame || u == Itemize || u == Block;
    assert |c| > 0;
  }

  /** `\begin{frame}\\begin{itemize}`, a frame followed by an opening
      written with a doubled backslash, has one unclosed level per
      environment, yet repairing it as written appends `\end{itemize}` on
      every pass and never closes the frame. */
  lemma RepairAsWrittenNotIdempotent(raw: string)
    requires raw == Begin(Frame, Single) + Begin(Itemize, Double)
    ensures RepairAsWritten(RepairAsWritten(raw)) != RepairAsWritten(raw)
  {
    TrimAtFrame(raw);
    DoubledItemizeCounts(raw);
    OpensCloses(raw, Itemize, Double);
    OpensCloses(raw, Frame, Double);
    OpensCloses(raw, Frame, Single);
    RepairAsWrittenKeepsAppending(raw, Itemize);
  }

  /** The tag counts of the answer above, at every index. */
  lemma DoubledItemizeCounts(raw: string)
    requires raw == Begin(Frame, Single) + Begin(Itemize, Double)
    ensures Count(raw, Begin(Itemize, Double)) > 0 && Count(raw, End(Itemize, Double)) == 0
    ensures Count(raw, Begin(Frame, Single)) > 0 && Count(raw, End(Frame, Single)) == 0
    ensures Count(raw, Begin(Frame, Double)) == 0
  {
    DoubledItemizeOpens(raw);
    DoubledItemizeLacksEnd(raw, End(Itemize, Double));
    DoubledItemizeLacksEnd(raw, End(Frame, Single));
    DoubledItemizeLacksFrame(raw, Begin(Frame, Double));
  }

  /** No doubled frame opening occurs: it cannot straddle the `}` that ends
      the first tag, and the second tag holds no `f`. */
  lemma DoubledItemizeLacksFrame(raw: string, n: string)
    requires raw == Begin(Frame, Single) + Begin(Itemize, Double)
    requires n == Begin(Frame, Double)
    ensures Count(raw, n) == 0
  {
    var a, b := Begin(Frame, Single), Begin(Itemize, Double);
    NeedleEnds(Frame, Double);
    assert a[|a| - 1] == '}';
    CountConcatAt(a, b, n);
    DoubledItemizeLacksF(b, n);
  }

  lemma DoubledItemizeLacksF(b: string, n: string)
    requires b == Begin(Itemize, Double) && n == Begin(Frame, Double)
    ensures Count(b, n) == 0
  {
    assert n[8] == 'f';
    assert 'f' !in b;
    CountWithoutChar(b, n, 'f');
  }

  lemma DoubledItemizeOpens(raw: string)
    requires raw == Begin(Frame, Single) + Begin(Itemize, Double)
    ensures Count(raw, Begin(Itemize, Double)) > 0 && Count(raw, Begin(Frame, Single)) > 0
  {
    assert OccursAt(raw, Begin(Itemize, Double), 13);
    CountZeroIff(raw, Begin(Itemize, Double));
    assert OccursAt(raw, Begin(Frame, Single), 0);
    CountZeroIff(raw, Begin(Frame, Single));
  }

  /** No closing tag occurs: the answer holds no `d`. */
  lemma DoubledItemizeLacksEnd(raw: string, n: string)
    requires raw == Begin(Frame, Single) + Begin(Itemize, Double)
    requires n == End(Itemize, Double) || n == End(Frame, Single)
    ensures Count(raw, n) == 0
  {
    assert 'd' !in raw;
    CountWithoutChar(raw, n, 'd');
  }
}

=== FILE: partition.dfy ===
/** How `main` cuts the document into groups of consecutive pages and what
    text it extracts from each group. Pages are modelled by the text the PDF
    reader extracts from them; the reader itself is not modelled. */
module Partition {
  import opened Text

  /** Pages per group. */
  const PAGES: nat := 4

  function Min(a: int, b: int): int {
    if a <= b then a else b
  }

  /** Group number `number` (counted from 1) holds pages `start` up to, not
      including, `end`. */
  datatype Group = Group(number: nat, start: nat, end: nat)

  /** The indices `lo`, `lo + 1`, ..., `hi - 1`. */
  function Range(lo: nat, hi: nat): (r: seq<nat>)
    requires lo <= hi
    ensures |r| == hi - lo
    ensures forall k :: 0 <= k < |r| ==> r[k] == lo + k
    decreases hi - lo
  {
    if lo == hi then [] else [lo] + Range(lo + 1, hi)
  }

  /** The loop `for i in range(i, n, size)` from start index `i`, with the
      group counter at `number`. */
  function GroupsFrom(i: nat, number: nat, n: nat, size: nat): (r: seq<Group>)
    requires size > 0
    ensures |r| == 0 <==> n <= i
    ensures |r| > 0 ==> i + (|r| - 1) * size < n <= i + |r| * size
    ensures forall k :: 0 <= k < |r| ==>
              r[k] == Group(number + k, i + k * size, Min(i + k * size + size, n))
    decreases n - i
  {
    if n <= i then []
    else [Group(number, i, Min(i + size, n))] + GroupsFrom(i + size, number + 1, n, size)
  }

  /** The groups of an `n`-page document, numbered from 1. */
  function Groups(n: nat, size: nat): (r: seq<Group>)
    requires size > 0
    ensures n == 0 <==> |r| == 0
    ensures |r| > 0 ==> (|r| - 1) * size < n <= |r| * size
    ensures forall k :: 0 <= k < |r| ==> r[k] == Group(k + 1, k * size, Min(k * size + size, n))
  {
    GroupsFrom(0, 1, n, size)
  }

  /** The groups tile the pages: the first starts at page 0, each starts
      where the previous one ends, the last ends at the last page, every
      group is non-empty and none is longer than `size`, and only the last
      may be shorter. */
  lemma GroupsTile(n: nat, size: nat)
    requires size > 0
    ensures var g := Groups(n, size);
            && (|g| > 0 ==> g[0].start == 0 && g[|g| - 1].end == n)
            && (forall k :: 0 <= k < |g| - 1 ==> g[k].end == g[k + 1].start)
            && (forall k :: 0 <= k < |g| ==> g[k].start < g[k].end <= g[k].start + size)
            && (forall k :: 0 <= k < |g| - 1 ==> g[k].end - g[k].start == size)
  {
    var g := Groups(n, size);
    forall k | 0 <= k < |g| - 1
      ensures g[k].end == g[k + 1].start && g[k].end - g[k].start == size
    {
      assert k * size + size == (k + 1) * size;
      assert (k + 1) * size <= (|g| - 1) * size;
    }
    if |g| > 0 {
      assert (|g| - 1) * size + size == |g| * size;
    }
  }

  /** Every page lies in exactly one group. */
  lemma GroupsCover(n: nat, size: nat, p: nat)
    requires size > 0 && p < n
    ensures var g := Groups(n, size);
            exists k :: 0 <= k < |g| && g[k].start <= p < g[k].end
    ensures var g := Groups(n, size);
            forall k, j ::
              (0 <= k < |g| && 0 <= j < |g| && g[k].start <= p < g[k].end && g[j].start <= p < g[j].end)
              ==> k == j
  {
    var g := Groups(n, size);
    var k := p / size;
    DivBlock(p, size);
    MulMono(|g|, k, size);
    assert g[k].start <= p < g[k].end;
    forall a, b | 0 <= a < |g| && 0 <= b < |g| && g[a].start <= p < g[a].end
                  && g[b].start <= p < g[b].end
      ensures a == b
    {
      SameBlock(a, b, p, size);
    }
  }

  lemma DivBlock(p: nat, size: nat)
    requires size > 0
    ensures (p / size) * size <= p < (p / size) * size + size
  {
    assert p == (p / size) * size + p % size;
  }

  /** A page index falls in the block `[k * size, k * size + size)` for one `k` only. */
  lemma SameBlock(a: nat, b: nat, p: nat, size: nat)
    requires size > 0
    requires a * size <= p < a * size + size && b * size <= p < b * size + size
    ensures a == b
  {
    MulMono(a + 1, b, size);
    MulMono(b + 1, a, size);
  }

  lemma MulMono(x: nat, y: nat, size: nat)
    ensures x <= y ==> x * size <= y * size
  {
    if x <= y {
      assert y * size == x * size + (y - x) * size;
    }
  }

  /** Two pages give one group; nine pages give groups of four, four and one. */
  lemma GroupsExamples()
    ensures Groups(2, PAGES) == [Group(1, 0, 2)]
    ensures Groups(9, PAGES) == [Group(1, 0, 4), Group(2, 4, 8), Group(3, 8, 9)]
  {
    var g2 := Groups(2, PAGES);
    assert |g2| == 1;
    var g9 := Groups(9, PAGES);
    assert |g9| == 3;
  }

  /** The pages `main` hands to the PDF writer for the group starting at
      `i`: the inner `for j in range(size)` adds page `i + j` when it exists. */
  function WriterPages(i: nat, j: nat, n: nat, size: nat): seq<nat>
    requires j <= size
    decreases size - j
  {
    if j == size then []
    else (if i + j < n then [i + j] else []) + WriterPages(i, j + 1, n, size)
  }

  /** The group's PDF holds exactly the pages whose text is extracted. */
  lemma {:induction false} WriterPagesRange(i: nat, j: nat, n: nat, size: nat)
    requires j <= size && i <= n
    ensures WriterPages(i, j, n, size) == Range(Min(i + j, n), Min(i + size, n))
    decreases size - j
  {
    if j < size {
      WriterPagesRange(i, j + 1, n, size);
    }
  }

  // ---------------------------------------------------------------------
  // Text extraction

  /** Each page's text followed by a line break, in page order. */
  function JoinPages(pages: seq<string>): string {
    if |pages| == 0 then "" else pages[0] + "\n" + JoinPages(pages[1..])
  }

  /** Extracting two runs of pages one after the other extracts their
      concatenation. */
  lemma {:induction false} JoinPagesAppend(a: seq<string>, b: seq<string>)
    ensures JoinPages(a + b) == JoinPages(a) + JoinPages(b)
  {
    if |a| > 0 {
      assert (a + b)[1..] == a[1..] + b;
      JoinPagesAppend(a[1..], b);
    } else {
      assert a + b == b;
    }
  }

  /** The text of one group. */
  function GroupText(pages: seq<string>, g: Group): string
    requires g.start <= g.end <= |pages|
  {
    JoinPages(pages[g.start..g.end])
  }

  /** The extraction loop for one group, as `main` runs it: start from the
      empty string and append each page's text and a line break. */
  method ExtractText(pages: seq<string>, i: nat) returns (text: string)
    requires i <= |pages|
    ensures text == JoinPages(pages[i..Min(i + PAGES, |pages|)])
  {
    var stop := Min(i + PAGES, |pages|);
    text := "";
    var k := i;
    while k < stop
      invariant i <= k <= stop
      invariant text == JoinPages(pages[i..k])
    {
      JoinPagesAppend(pages[i..k], [pages[k]]);
      assert pages[i..k + 1] == pages[i..k] + [pages[k]];
      text := text + pages[k] + "\n";
      k := k + 1;
    }
  }

  /** The group texts, in group order. */
  function GroupTexts(pages: seq<string>, groups: seq<Group>): (r: seq<string>)
    requires forall k :: 0 <= k < |groups| ==> groups[k].start <= groups[k].end <= |pages|
    ensures |r| == |groups|
    ensures forall k :: 0 <= k < |r| ==> r[k] == GroupText(pages, groups[k])
  {
    seq(|groups|, k requires 0 <= k < |groups| => GroupText(pages, groups[k]))
  }

  /** The group texts of a document, in group order: group `k` holds the
      text of pages `k * PAGES` up to `k * PAGES + PAGES` or the end. */
  function DocumentTexts(pages: seq<string>): (r: seq<string>)
    ensures |r| == |Groups(|pages|, PAGES)|
    ensures forall k :: 0 <= k < |r| ==>
              k * PAGES < |pages| && r[k] == JoinPages(pages[k * PAGES..Min(k * PAGES + PAGES, |pages|)])
  {
    GroupsTile(|pages|, PAGES);
    GroupTexts(pages, Groups(|pages|, PAGES))
  }

  /** The text of the group starting at page `i` is what the extraction
      loop collects from there. */
  lemma DocumentTextAt(pages: seq<string>, g: nat, i: nat)
    requires g < |DocumentTexts(pages)| && i == g * PAGES
    ensures i < |pages| && DocumentTexts(pages)[g] == JoinPages(pages[i..Min(i + PAGES, |pages|)])
  {
  }

  /** Nothing is lost or repeated: the group texts of the whole document,
      put together, are the text of every page in order. */
  lemma GroupTextsCoverDocument(pages: seq<string>)
    ensures Concat(DocumentTexts(pages)) == JoinPages(pages)
  {
    GroupsTile(|pages|, PAGES);
    TilesJoin(pages, Groups(|pages|, PAGES), 0);
  }

  /** Groups that tile pages `from` to the end extract exactly those pages. */
  lemma {:induction false} TilesJoin(pages: seq<string>, groups: seq<Group>, from: nat)
    requires from <= |pages|
    requires |groups| == 0 ==> from == |pages|
    requires |groups| > 0 ==> groups[0].start == from && groups[|groups| - 1].end == |pages|
    requires forall k :: 0 <= k < |groups| ==> groups[k].start <= groups[k].end <= |pages|
    requires forall k :: 0 <= k < |groups| - 1 ==> groups[k].end == groups[k + 1].start
    ensures Concat(GroupTexts(pages, groups)) == JoinPages(pages[from..])
    decreases |groups|
  {
    if |groups| == 0 {
      assert pages[from..] == [];
    } else {
      var g := groups[0];
      var rest := groups[1..];
      TilesJoin(pages, rest, g.end);
      assert GroupTexts(pages, groups)[1..] == GroupTexts(pages, rest);
      assert pages[from..] == pages[g.start..g.end] + pages[g.end..];
      JoinPagesAppend(pages[g.start..g.end], pages[g.end..]);
    }
  }
}

=== FILE: pipeline.dfy ===
/** The per-group loop of `main`: refuse documents of fewer than two pages,
    start `Output.tex` with its header, then for each group in order extract
    its text, ask the model for a slide, and append the repaired slide and a
    blank line. The file is modelled as the string it ends up holding; the
    Bedrock client is the parameter `converse` and the repairer the
    parameter `repair`, so the same loop runs with the repairer as written
    (`Fragment.RepairAsWritten`) or as intended (`Fragment.Repair`). */
module Pipeline {
  import opened Text
  import opened Fragment
  import opened Prompt
  import opened Partition

  /** The comment line and blank line `Output.tex` starts with. */
  const Header: string := "% このファイルにBeamerスライドが追記されます\n\n"

  /** How a run ends: refused before the run's folder and `Output.tex` are
      created, finished, or stopped by a reply the program cannot read, with
      what was written up to then. `answers` are the raw answers in group
      order. */
  datatype Outcome =
    | Rejected
    | Completed(artifact: string, answers: seq<string>)
    | Aborted(artifact: string, answers: seq<string>)

  /** What one answer adds to the file. */
  function Entry(repair: string -> string, answer: string): string {
    repair(answer) + "\n\n"
  }

  /** The entries of several answers, in order. */
  function Entries(repair: string -> string, answers: seq<string>): string {
    if |answers| == 0 then "" else Entry(repair, answers[0]) + Entries(repair, answers[1..])
  }

  lemma {:induction false} EntriesAppend(repair: string -> string, a: seq<string>, b: seq<string>)
    ensures Entries(repair, a + b) == Entries(repair, a) + Entries(repair, b)
  {
    if |a| == 0 {
      assert a + b == b;
    } else {
      assert (a + b)[1..] == a[1..] + b;
      EntriesAppend(repair, a[1..], b);
    }
  }

  /** The groups from here on: ask for each text's slide; stop at the first
      unreadable reply; otherwise append its entry and go on. */
  function Process(texts: seq<string>, ask: string -> Option<string>, repair: string -> string,
                   artifact: string, answers: seq<string>): (r: Outcome)
    ensures r.Completed? || r.Aborted?
    ensures StartsWith(r.artifact, artifact)
    decreases |texts|
  {
    if |texts| == 0 then Completed(artifact, answers)
    else match ask(texts[0])
      case None => Aborted(artifact, answers)
      case Some(a) =>
        var r := Process(texts[1..], ask, repair, artifact + Entry(repair, a), answers + [a]);
        assert StartsWith(artifact + Entry(repair, a), artifact);
        r
  }

  /** Every text gets a readable reply. */
  predicate AllRead(texts: seq<string>, ask: string -> Option<string>) {
    forall k :: 0 <= k < |texts| ==> ask(texts[k]).Some?
  }

  /** The answers to the texts, when all of them can be read. */
  function Replies(texts: seq<string>, ask: string -> Option<string>): (r: seq<string>)
    requires forall k :: 0 <= k < |texts| ==> ask(texts[k]).Some?
    ensures |r| == |texts|
    ensures forall k :: 0 <= k < |texts| ==> r[k] == ask(texts[k]).value
  {
    if |texts| == 0 then [] else [ask(texts[0]).value] + Replies(texts[1..], ask)
  }

  /** One answered group: its entry is appended and processing goes on. */
  lemma ProcessStep(texts: seq<string>, ask: string -> Option<string>, repair: string -> string,
                    artifact: string, answers: seq<string>)
    requires |texts| > 0 && ask(texts[0]).Some?
    ensures Process(texts, ask, repair, artifact, answers)
            == Process(texts[1..], ask, repair,
                       artifact + Entry(repair, ask(texts[0]).value), answers + [ask(texts[0]).value])
  {
  }

  /** The same step, for the group at index `g`. */
  lemma ProcessAt(texts: seq<string>, g: nat, ask: string -> Option<string>, repair: string -> string,
                  artifact: string, answers: seq<string>)
    requires g < |texts| && ask(texts[g]).Some?
    ensures Process(texts[g..], ask, repair, artifact, answers)
            == Process(texts[g + 1..], ask, repair,
                       artifact + Entry(repair, ask(texts[g]).value), answers + [ask(texts[g]).value])
  {
    assert texts[g..][0] == texts[g];
    assert texts[g..][1..] == texts[g + 1..];
    ProcessStep(texts[g..], ask, repair, artifact, answers);
  }

  /** The replies to a run of texts are the reply to the first and the
      replies to the rest. */
  lemma RepliesFirst(texts: seq<string>, ask: string -> Option<string>, c: nat)
    requires 0 < c <= |texts|
    requires forall k :: 0 <= k < c ==> ask(texts[k]).Some?
    ensures Replies(texts[..c], ask) == [ask(texts[0]).value] + Replies(texts[1..][..c - 1], ask)
  {
    assert texts[1..][..c - 1] == texts[..c][1..];
  }

  /** Processing goes group by group: after the first `c` groups, all
      answered, the file holds their entries in order and processing
      continues with the rest. */
  lemma {:induction false} ProcessPrefix(texts: seq<string>, ask: string -> Option<string>,
                                         repair: string -> string, artifact: string,
                                         answers: seq<string>, c: nat)
    requires c <= |texts|
    requires forall k :: 0 <= k < c ==> ask(texts[k]).Some?
    ensures Process(texts, ask, repair, artifact, answers)
            == Process(texts[c..], ask, repair,
                       artifact + Entries(repair, Replies(texts[..c], ask)),
                       answers + Replies(texts[..c], ask))
    decreases c
  {
    if c == 0 {
      assert texts[0..] == texts;
      assert Replies(texts[..0], ask) == [];
      assert artifact + Entries(repair, []) == artifact;
      assert answers + [] == answers;
    } else {
      var a := ask(texts[0]).value;
      ProcessStep(texts, ask, repair, artifact, answers);
      ProcessPrefix(texts[1..], ask, repair, artifact + Entry(repair, a), answers + [a], c - 1);
      var rest := Replies(texts[1..][..c - 1], ask);
      RepliesFirst(texts, ask, c);
      assert texts[1..][c - 1..] == texts[c..];
      EntriesFirst(artifact, answers, repair, a, rest);
    }
  }

  /** Appending one entry and then the rest appends the entries of all. */
  lemma EntriesFirst(artifact: string, answers: seq<string>, repair: string -> string,
                     a: string, rest: seq<string>)
    ensures artifact + Entry(repair, a) + Entries(repair, rest) == artifact + Entries(repair, [a] + rest)
    ensures answers + [a] + rest == answers + ([a] + rest)
  {
    assert ([a] + rest)[1..] == rest;
  }

  /** When every reply can be read, the file is what it held before
      followed by every group's entry in group order. */
  lemma ProcessCompletes(texts: seq<string>, ask: string -> Option<string>, repair: string -> string,
                         artifact: string)
    requires forall k :: 0 <= k < |texts| ==> ask(texts[k]).Some?
    ensures Process(texts, ask, repair, artifact, [])
            == Completed(artifact + Entries(repair, Replies(texts, ask)), Replies(texts, ask))
  {
    ProcessPrefix(texts, ask, repair, artifact, [], |texts|);
    assert texts[..|texts|] == texts;
    assert texts[|texts|..] == [];
  }

  /** When the reply for group `c` cannot be read, the run stops there and
      the file holds what it held before and the entries of the groups
      before `c`. */
  lemma ProcessAborts(texts: seq<string>, ask: string -> Option<string>, repair: string -> string,
                      artifact: string, c: nat)
    requires c < |texts|
    requires forall k :: 0 <= k < c ==> ask(texts[k]).Some?
    requires ask(texts[c]).None?
    ensures Process(texts, ask, repair, artifact, [])
            == Aborted(artifact + Entries(repair, Replies(texts[..c], ask)), Replies(texts[..c], ask))
  {
    ProcessPrefix(texts, ask, repair, artifact, [], c);
    assert texts[c..][0] == texts[c];
  }

  /** The model's answer for one group's text. */
  function Ask(cfg: Config, converse: Request -> Reply): string -> Option<string> {
    text => GenerateSlides(text, cfg, converse)
  }

  /** The whole run on a document whose pages have the given texts. */
  function Run(pages: seq<string>, cfg: Config, converse: Request -> Reply, repair: string -> string): (r: Outcome)
    ensures r.Rejected? <==> |pages| < 2
    ensures !r.Rejected? ==> StartsWith(r.artifact, Header)
  {
    if |pages| < 2 then Rejected
    else
      Process(DocumentTexts(pages), Ask(cfg, converse), repair, Header, [])
  }

  /** The program as written: default settings, completion as written. */
  function RunAsWritten(pages: seq<string>, converse: Request -> Reply): Outcome {
    Run(pages, DefaultConfig, converse, RepairAsWritten)
  }

  /** The program with the intended completion step. */
  function RunRepaired(pages: seq<string>, converse: Request -> Reply): Outcome {
    Run(pages, DefaultConfig, converse, Repair)
  }

  /** A failed call does not stop the run: its error text takes the place
      of the answer, and the run goes on to the next group. */
  lemma FailedCallContinues(texts: seq<string>, cfg: Config, converse: Request -> Reply,
                            repair: string -> string, artifact: string, answers: seq<string>)
    requires |texts| > 0
    requires converse(MakeRequest(cfg, SlidePrompt(texts[0]))).Raised?
    ensures var e := ErrorText(cfg.modelId, converse(MakeRequest(cfg, SlidePrompt(texts[0]))).reason);
            Process(texts, Ask(cfg, converse), repair, artifact, answers)
            == Process(texts[1..], Ask(cfg, converse), repair, artifact + Entry(repair, e), answers + [e])
  {
  }

  /** An error text naming no LaTeX passes through either repairer
      unchanged, so it is what the file holds for that group. */
  lemma ErrorTextUnrepaired(modelId: string, reason: string)
    requires '\\' !in modelId && '\\' !in reason
    ensures Repair(ErrorText(modelId, reason)) == ErrorText(modelId, reason)
    ensures RepairAsWritten(ErrorText(modelId, reason)) == ErrorText(modelId, reason)
  {
    var e := ErrorText(modelId, reason);
    assert '\\' !in e;
    forall t: Tag, esc: Escape
      ensures Opens(e, t, esc) == 0 && Closes(e, t, esc) == 0
    {
      NeedleShape(t, esc);
      OpensCloses(e, t, esc);
      CountWithoutFirstChar(e, Begin(t, esc));
      CountWithoutFirstChar(e, End(t, esc));
    }
    CountWithoutFirstChar(e, Begin(Frame, Single));
    TrimWithoutFrame(e);
  }

  /** A run that finishes has asked about every group and holds the header
      followed by every group's entry; a run that stops holds the header and
      the entries of the groups before the first unreadable reply. */
  lemma RunContents(pages: seq<string>, cfg: Config, converse: Request -> Reply, repair: string -> string)
    requires |pages| >= 2
    ensures var texts := DocumentTexts(pages);
            var r := Run(pages, cfg, converse, repair);
            r.Completed? <==> AllRead(texts, Ask(cfg, converse))
    ensures var texts := DocumentTexts(pages);
            var ask := Ask(cfg, converse);
            var r := Run(pages, cfg, converse, repair);
            AllRead(texts, ask) ==> r.artifact == Header + Entries(repair, Replies(texts, ask))
    ensures var texts := DocumentTexts(pages);
            var ask := Ask(cfg, converse);
            var r := Run(pages, cfg, converse, repair);
            !AllRead(texts, ask) ==>
              var c := FirstUnread(texts, ask);
              r.artifact == Header + Entries(repair, Replies(texts[..c], ask))
  {
    var texts := DocumentTexts(pages);
    var ask := Ask(cfg, converse);
    if AllRead(texts, ask) {
      ProcessCompletes(texts, ask, repair, Header);
    } else {
      var c := FirstUnread(texts, ask);
      ProcessAborts(texts, ask, repair, Header, c);
    }
  }

  /** The first text whose reply cannot be read. */
  function FirstUnread(texts: seq<string>, ask: string -> Option<string>): (c: nat)
    requires !AllRead(texts, ask)
    ensures c < |texts| && ask(texts[c]).None?
    ensures forall k :: 0 <= k < c ==> ask(texts[k]).Some?
  {
    if ask(texts[0]).None? then 0
    else
      var k :| 0 <= k < |texts| && ask(texts[k]).None?;
      assert 0 <= k - 1 < |texts[1..]| && ask(texts[1..][k - 1]).None?;
      1 + FirstUnread(texts[1..], ask)
  }

  /** The loop as `main` writes it: `i` runs over 0, 4, 8, ... below the
      page count and the group counter from 1; each pass extracts the
      group's text, asks the model, and appends the repaired answer. */
  method RunLoop(pages: seq<string>, cfg: Config, converse: Request -> Reply, repair: string -> string)
    returns (outcome: Outcome)
    ensures outcome == Run(pages, cfg, converse, repair)
    ensures outcome.Rejected? <==> |pages| < 2
  {
    if |pages| < 2 {
      return Rejected;
    }
    var n := |pages|;
    var texts := DocumentTexts(pages);
    var ask := Ask(cfg, converse);
    var artifact := Header;
    var answers: seq<string> := [];
    var groupNum := 1;
    var i := 0;
    while i < n
      invariant 1 <= groupNum <= |texts| + 1
      invariant i == (groupNum - 1) * PAGES
      invariant groupNum <= |texts| <==> i < n
      invariant Process(texts[groupNum - 1..], ask, repair, artifact, answers)
                == Process(texts, ask, repair, Header, [])
      decreases n - i
    {
      var g := groupNum - 1;
      var text := ExtractText(pages, i);
      DocumentTextAt(pages, g, i);
      var reply := GenerateSlides(text, cfg, converse);
      if reply.None? {
        assert texts[g..][0] == texts[g];
        return Aborted(artifact, answers);
      }
      ProcessAt(texts, g, ask, repair, artifact, answers);
      answers := answers + [reply.value];
      artifact := artifact + Entry(repair, reply.value);
      groupNum := groupNum + 1;
      i := i + PAGES;
    }
    return Completed(artifact, answers);
  }
}

=== FILE: prompt.dfy ===
/** What the program sends to the model and what it makes of the answer:
    the Mistral instruction wrapping and the `converse` request of
    `get_model_response_old`, the slide prompt of
    `generate_japanese_slides_bedrock`, and the error text that replaces a
    failed call. The Bedrock client itself is a parameter. */
module Prompt {
  import opened Text

  datatype Option<T> = None | Some(value: T)

  // ---------------------------------------------------------------------
  // Mistral wrapping

  /** The start-of-sequence marker whose presence means "already wrapped". */
  const Marker: string := "<s>"
  const InstOpen: string := "<s>[INST]"
  const InstClose: string := "[/INST]"

  /** A prompt without the marker is wrapped in Mistral's instruction tags;
      one that holds the marker anywhere is sent as it is. */
  function Wrap(p: string): (r: string)
    ensures (exists i :: OccursAt(p, Marker, i)) ==> r == p
    ensures (forall i :: !OccursAt(p, Marker, i)) ==>
              && StartsWith(r, InstOpen)
              && |r| == |InstOpen| + |p| + |InstClose|
              && r[|InstOpen|..|InstOpen| + |p|] == p
              && r[|InstOpen| + |p|..] == InstClose
  {
    if Find(p, Marker) == -1 then InstOpen + p + InstClose else p
  }

  /** Whatever goes in, what comes out holds the marker. */
  lemma WrapHasMarker(p: string)
    ensures Find(Wrap(p), Marker) != -1
  {
    var r := Wrap(p);
    if Find(p, Marker) == -1 {
      assert r[0..] == r;
      assert r[..|Marker|] == Marker;
      assert OccursAt(r, Marker, 0);
    }
  }

  /** Wrapping twice is wrapping once. */
  lemma WrapIdempotent(p: string)
    ensures Wrap(Wrap(p)) == Wrap(p)
  {
    WrapHasMarker(p);
  }

  // ---------------------------------------------------------------------
  // The slide prompt
  //
  // Together the constants below are the lines of the prompt template of
  // app.py:100-120. Some literals are split into pieces, sometimes mid-word:
  // the pieces are joined only to keep the solver's `'<' !in` checks cheap,
  // and the split carries no meaning.

  /** The instruction line: explain the English text in an easy Japanese
      one-page slide. */
  const Instruction: string :=
    "以下の英語の文章を説明するわかりやすい日本語" + "の1ページのスライドを作成してください。"
  const SourceHeading: string := "## 原文"
  const FormatHeading: string := "## スライドのフォーマット"

  /** The Beamer skeleton the model is asked to fill in. */
  const FrameLine: string := "\\begin{frame}{このページで言い" + "たいことや重要な概念}"
  const KeyLine: string :=
    "  \\textbf{その重要な概念の説明・キ" + "ーメッセージ。繰り返し登場する単語は英語2〜"
    + "3文字の略称(例：BTC,JPY等)にする。" + "}"
  const BlockLine: string := "  \\begin{block}{具体的な説明" + "など・このページのわかりやすい要約}"
  const ItemizeLine: string := "    \\begin{itemize}"
  const ItemLine1: string := "      \\item 3行程度の完結な説明" + "をitemizeで作る。完結な文章を心がける" + "。"
  const ItemLine2: string := "      \\item 各行は40文字以内に" + "する。体言止めなどをつかう。"
  const ItemLine3: string := "      \\item itemizeは3行" + "までにする。"
  const EndItemizeLine: string := "    \\end{itemize}"
  const EndBlockLine: string := "  \\end{block}"
  const EndFrameLine: string := "\\end{frame}"
  const OutputLine: string :=
    "## Output (1ページのスライドの内" + "容のみをLaTeX・Beamerフォーマット" + "で日本語で出力する）:"

  const FormatBlock: string :=
    JoinLines([FrameLine, KeyLine, BlockLine, ItemizeLine, ItemLine1, ItemLine2, ItemLine3,
               EndItemizeLine, EndBlockLine, EndFrameLine])

  /** The lines, separated by line breaks. */
  function JoinLines(lines: seq<string>): string {
    if |lines| == 0 then ""
    else if |lines| == 1 then lines[0]
    else lines[0] + "\n" + JoinLines(lines[1..])
  }

  /** A character other than the line break that no line holds is not in
      the joined text either. */
  lemma {:induction false} JoinLinesWithout(lines: seq<string>, c: char)
    requires c != '\n'
    requires forall i :: 0 <= i < |lines| ==> c !in lines[i]
    ensures c !in JoinLines(lines)
  {
    if |lines| > 1 {
      JoinLinesWithout(lines[1..], c);
    }
  }

  /** Everything before the English text. */
  const PromptHead: string := "\n" + Instruction + "\n\n" + SourceHeading + "\n\n"

  /** Everything after the English text. */
  const PromptTail: string :=
    "\n\n\n" + FormatHeading + "\n\n" + FormatBlock + "\n\n" + OutputLine + "\n"

  /** The prompt for one group: the fixed head, the group's text verbatim,
      the fixed tail. */
  function SlidePrompt(text: string): (r: string)
    ensures StartsWith(r, PromptHead)
    ensures |r| == |PromptHead| + |text| + |PromptTail|
    ensures r[|PromptHead|..|PromptHead| + |text|] == text
    ensures r[|PromptHead| + |text|..] == PromptTail
  {
    PromptHead + text + PromptTail
  }

  /** Different texts give different prompts. */
  lemma SlidePromptInjective(a: string, b: string)
    ensures SlidePrompt(a) == SlidePrompt(b) ==> a == b
  {
    if SlidePrompt(a) == SlidePrompt(b) {
      assert |a| == |b|;
      assert a == SlidePrompt(a)[|PromptHead|..|PromptHead| + |a|];
    }
  }

  // The template holds no `<`. Deciding `'<' !in` on one long literal is
  // costly for the solver, so the template is checked piece by piece in the
  // lemmas below and the pieces are then put together.

  lemma HeadHasNoAngle()
    ensures '<' !in PromptHead
  {
    assert '<' !in Instruction;
    assert '<' !in SourceHeading;
  }

  lemma FrameLineHasNoAngle()
    ensures '<' !in FrameLine
  {
  }

  lemma KeyLineHasNoAngle()
    ensures '<' !in KeyLine
  {
  }

  lemma BlockLineHasNoAngle()
    ensures '<' !in BlockLine
  {
  }

  lemma ItemLinesHaveNoAngle()
    ensures '<' !in ItemizeLine && '<' !in ItemLine1
  {
  }

  lemma LaterItemLinesHaveNoAngle()
    ensures '<' !in ItemLine2 && '<' !in ItemLine3
  {
  }

  lemma EndLinesHaveNoAngle()
    ensures '<' !in EndItemizeLine && '<' !in EndBlockLine && '<' !in EndFrameLine
  {
  }

  lemma FormatHasNoAngle()
    ensures '<' !in FormatBlock
  {
    FrameLineHasNoAngle();
    KeyLineHasNoAngle();
    BlockLineHasNoAngle();
    ItemLinesHaveNoAngle();
    LaterItemLinesHaveNoAngle();
    EndLinesHaveNoAngle();
    var lines := [FrameLine, KeyLine, BlockLine, ItemizeLine, ItemLine1, ItemLine2, ItemLine3,
                  EndItemizeLine, EndBlockLine, EndFrameLine];
    JoinLinesWithout(lines, '<');
  }

  lemma HeadingsHaveNoAngle()
    ensures '<' !in FormatHeading && '<' !in OutputLine
  {
  }

  lemma TailHasNoAngle()
    ensures '<' !in PromptTail
  {
    FormatHasNoAngle();
    HeadingsHaveNoAngle();
  }

  /** The template holds no marker of its own: the slide prompt holds
      exactly as many markers as the group's text. */
  lemma SlidePromptMarkers(text: string)
    ensures Count(SlidePrompt(text), Marker) == Count(text, Marker)
  {
    HeadHasNoAngle();
    TailHasNoAngle();
    var h := PromptHead;
    var t := PromptTail;
    assert h[|h| - 1] == '\n' && t[0] == '\n';
    CountConcatAt(h, text, Marker);
    CountConcatAt(h + text, t, Marker);
    CountWithoutFirstChar(h, Marker);
    CountWithoutFirstChar(t, Marker);
  }

  /** So the slide prompt is wrapped exactly when the group's text holds no
      marker; a page whose text contains `<s>` switches the wrapping off. */
  lemma SlidePromptWrapped(text: string)
    ensures Find(SlidePrompt(text), Marker) == -1 <==> Find(text, Marker) == -1
  {
    SlidePromptMarkers(text);
    FindCount(SlidePrompt(text), Marker);
    FindCount(text, Marker);
  }

  // ---------------------------------------------------------------------
  // The converse request and its answer

  /** The caller's settings that reach the request. The sampling floats
      `top_p` and `temperature` pass through untouched and are not modelled. */
  datatype Config = Config(modelId: string, maxTokens: int, topK: int)

  /** The defaults `generate_japanese_slides_bedrock` runs with. */
  const DefaultConfig: Config := Config("mistral.mistral-large-2402-v1:0", 1500, 50)

  /** One user turn holding one text block, with the model and token limit. */
  datatype Request = Request(modelId: string, role: string, text: string, maxTokens: int)

  function MakeRequest(cfg: Config, prompt: string): (r: Request)
    ensures r.modelId == cfg.modelId && r.maxTokens == cfg.maxTokens
    ensures r.role == "user"
    ensures Find(r.text, Marker) != -1
  {
    WrapHasMarker(prompt);
    Request(cfg.modelId, "user", Wrap(prompt), cfg.maxTokens)
  }

  /** `top_k` is accepted and never sent: the request does not depend on it. */
  lemma RequestIgnoresTopK(cfg: Config, k: int, prompt: string)
    ensures MakeRequest(cfg.(topK := k), prompt) == MakeRequest(cfg, prompt)
  {
  }

  /** A piece of the answer's content. */
  datatype Piece = TextPiece(text: string) | OtherPiece

  /** What a `converse` call can come back with: a response whose message
      has some content, a response without an output message, or an
      exception. */
  datatype Reply = Answer(content: seq<Piece>) | NoMessage | Raised(reason: string)

  const ErrorOpen: string := "ERROR: Can't invoke '"
  const ErrorMiddle: string := "'. Reason: "

  /** The text a failed call is turned into. */
  function ErrorText(modelId: string, reason: string): (r: string)
    ensures StartsWith(r, ErrorOpen)
    ensures |r| == |ErrorOpen| + |modelId| + |ErrorMiddle| + |reason|
    ensures r[|r| - |reason|..] == reason
  {
    ErrorOpen + modelId + ErrorMiddle + reason
  }

  /** A model id without a quote can be read back from the error text: it
      runs up to the first quote after the opening words. */
  lemma ErrorTextNamesModel(modelId: string, reason: string)
    requires '\'' !in modelId
    ensures var rest := ErrorText(modelId, reason)[|ErrorOpen|..];
            Find(rest, "'") == |modelId| && rest[..|modelId|] == modelId
  {
    var rest := ErrorText(modelId, reason)[|ErrorOpen|..];
    assert rest == modelId + (ErrorMiddle + reason);
    assert StartsWith(ErrorMiddle + reason, "'");
    FindAfter(modelId, ErrorMiddle + reason, "'");
  }

  /** A reply the program can use: an exception, or content whose first
      piece is text. Anything else makes the extraction raise. */
  predicate WellShaped(reply: Reply) {
    match reply
    case Raised(_) => true
    case NoMessage => false
    case Answer(content) => |content| > 0 && content[0].TextPiece?
  }

  /** The answer text, the error text for a failed call, or `None` when
      reading the reply raises outside the `try`. */
  function Extract(modelId: string, reply: Reply): (r: Option<string>)
    ensures r.None? <==> !WellShaped(reply)
    ensures reply.Raised? ==> r == Some(ErrorText(modelId, reply.reason))
    ensures reply.Answer? && WellShaped(reply) ==> r == Some(reply.content[0].text)
  {
    match reply
    case Raised(reason) => Some(ErrorText(modelId, reason))
    case NoMessage => None
    case Answer(content) =>
      if |content| > 0 && content[0].TextPiece? then Some(content[0].text) else None
  }

  /** One group's trip to the model: the slide prompt, wrapped, sent with
      the settings; the reply read as above. */
  function GenerateSlides(text: string, cfg: Config, converse: Request -> Reply): (r: Option<string>)
    ensures r.None? <==> !WellShaped(converse(MakeRequest(cfg, SlidePrompt(text))))
  {
    Extract(cfg.modelId, converse(MakeRequest(cfg, SlidePrompt(text))))
  }

  /** What the model is shown is the group's text inside the template,
      wrapped unless that text already holds the marker. */
  lemma GenerateSlidesSends(text: string, cfg: Config)
    ensures Find(text, Marker) == -1 ==>
              MakeRequest(cfg, SlidePrompt(text)).text == InstOpen + SlidePrompt(text) + InstClose
    ensures Find(text, Marker) != -1 ==>
              MakeRequest(cfg, SlidePrompt(text)).text == SlidePrompt(text)
  {
    SlidePromptWrapped(text);
  }
}

=== FILE: text.dfy ===
/** Substring search on strings, as Python's `str.find`, `str.count` and
    `re.findall` perform it for the fixed, non-empty needles this program
    searches for. Everything else in the model counts and finds tags through
    this module. */
module Text {

  /** `s` begins with `needle`. */
  predicate StartsWith(s: string, needle: string) {
    |needle| <= |s| && s[..|needle|] == needle
  }

  /** `needle` occurs in `s` starting at index `i`. */
  predicate OccursAt(s: string, needle: string, i: int) {
    0 <= i <= |s| && StartsWith(s[i..], needle)
  }

  /** Number of indices at which `needle` occurs in `s`, overlapping
      occurrences included. This is the reference notion of "how many
      times does the tag appear". */
  function Count(s: string, needle: string): nat
    requires |needle| > 0
    decreases |s|
  {
    if |s| < |needle| then 0
    else (if StartsWith(s, needle) then 1 else 0) + Count(s[1..], needle)
  }

  /** Python's `str.count(needle)` and `len(re.findall(needle))` for a
      literal pattern: scan left to right and resume after each match. */
  function CountNonOverlapping(s: string, needle: string): nat
    requires |needle| > 0
    decreases |s|
  {
    if |s| < |needle| then 0
    else if StartsWith(s, needle) then 1 + CountNonOverlapping(s[|needle|..], needle)
    else CountNonOverlapping(s[1..], needle)
  }

  /** Python's count is zero exactly when the needle occurs nowhere, and the
      matches it counts fit side by side in the string. */
  lemma {:induction false} CountNonOverlappingBounds(s: string, needle: string)
    requires |needle| > 0
    ensures CountNonOverlapping(s, needle) == 0 <==> Count(s, needle) == 0
    ensures CountNonOverlapping(s, needle) * |needle| <= |s|
    decreases |s|
  {
    if |s| >= |needle| {
      if StartsWith(s, needle) {
        var k := CountNonOverlapping(s[|needle|..], needle);
        CountNonOverlappingBounds(s[|needle|..], needle);
        assert (1 + k) * |needle| == |needle| + k * |needle|;
      } else {
        CountNonOverlappingBounds(s[1..], needle);
      }
    }
  }

  /** Python's `str.find(needle)`: the first index where `needle` occurs,
      or -1 when it occurs nowhere. */
  function Find(s: string, needle: string): (r: int)
    requires |needle| > 0
    ensures r == -1 ==> forall i :: !OccursAt(s, needle, i)
    ensures r != -1 ==> OccursAt(s, needle, r)
    ensures r != -1 ==> forall i :: 0 <= i < r ==> !OccursAt(s, needle, i)
    decreases |s|
  {
    if |s| < |needle| then -1
    else if StartsWith(s, needle) then 0
    else
      var k := Find(s[1..], needle);
      OccursAtShift(s, needle);
      assert s[0..] == s;
      if k == -1 then -1 else k + 1
  }

  /** Behind a stretch free of the needle's first character, the first
      occurrence is where the rest begins with the needle. */
  lemma FindAfter(a: string, b: string, needle: string)
    requires |needle| > 0 && needle[0] !in a && StartsWith(b, needle)
    ensures Find(a + b, needle) == |a|
  {
    var s := a + b;
    assert s[|a|..] == b;
    assert OccursAt(s, needle, |a|);
    forall i | 0 <= i < |a| ensures !OccursAt(s, needle, i) {
      if i + |needle| <= |s| {
        assert s[i..][..|needle|][0] == a[i];
      }
    }
  }

  /** A string that differs from the needle at some index does not start with it. */
  lemma DifferAt(s: string, needle: string, k: nat)
    requires k < |s| && k < |needle| && s[k] != needle[k]
    ensures !StartsWith(s, needle)
  {
    if |needle| <= |s| {
      assert s[..|needle|][k] == s[k];
    }
  }

  /** No occurrence of `needle` in `a + b` starts inside `a` and ends inside `b`. */
  ghost predicate NoStraddle(a: string, b: string, needle: string) {
    forall i :: 0 <= i < |a| < i + |needle| ==> !OccursAt(a + b, needle, i)
  }

  /** A needle whose last character appears nowhere else in it cannot
      overlap itself. */
  predicate LastCharUnique(needle: string) {
    |needle| > 0 && needle[|needle| - 1] !in needle[..|needle| - 1]
  }

  lemma OccursAtTail(s: string, needle: string, i: int)
    requires |s| > 0 && 0 <= i
    ensures OccursAt(s, needle, i + 1) <==> OccursAt(s[1..], needle, i)
  {
    if i + 1 <= |s| {
      assert s[i + 1..] == s[1..][i..];
    }
  }

  lemma OccursAtShift(s: string, needle: string)
    requires |s| > 0
    ensures forall i :: 1 <= i ==> (OccursAt(s, needle, i) <==> OccursAt(s[1..], needle, i - 1))
  {
    forall i | 1 <= i
      ensures OccursAt(s, needle, i) <==> OccursAt(s[1..], needle, i - 1)
    {
      OccursAtTail(s, needle, i - 1);
    }
  }

  /** A count of zero means no occurrence anywhere, and conversely. */
  lemma {:induction false} CountZeroIff(s: string, needle: string)
    requires |needle| > 0
    ensures Count(s, needle) == 0 <==> forall i :: !OccursAt(s, needle, i)
    decreases |s|
  {
    if |s| < |needle| {
      forall i ensures !OccursAt(s, needle, i) {
        if 0 <= i <= |s| {
          assert |s[i..]| < |needle|;
        }
      }
    } else {
      CountZeroIff(s[1..], needle);
      assert s[0..] == s;
      if Count(s, needle) == 0 {
        forall i ensures !OccursAt(s, needle, i) {
          if i >= 1 {
            OccursAtTail(s, needle, i - 1);
          }
        }
      } else if StartsWith(s, needle) {
        assert OccursAt(s, needle, 0);
      } else {
        var j :| OccursAt(s[1..], needle, j);
        OccursAtTail(s, needle, j);
      }
    }
  }

  /** `Find` reports absence exactly when the count is zero. */
  lemma FindCount(s: string, needle: string)
    requires |needle| > 0
    ensures Find(s, needle) == -1 <==> Count(s, needle) == 0
  {
    CountZeroIff(s, needle);
  }

  /** When no occurrence straddles the seam, counts add up over concatenation. */
  lemma {:induction false} CountConcat(a: string, b: string, needle: string)
    requires |needle| > 0
    requires NoStraddle(a, b, needle)
    ensures Count(a + b, needle) == Count(a, needle) + Count(b, needle)
    decreases |a|
  {
    if |a| == 0 {
      assert a + b == b;
    } else {
      var ab := a + b;
      assert ab[1..] == a[1..] + b;
      forall i | 0 <= i < |a[1..]| < i + |needle|
        ensures !OccursAt(a[1..] + b, needle, i)
      {
        OccursAtTail(ab, needle, i);
        assert !OccursAt(ab, needle, i + 1);
      }
      CountConcat(a[1..], b, needle);
      if |a| >= |needle| {
        assert ab[..|needle|] == a[..|needle|];
      } else {
        assert ab[0..] == ab;
        assert !OccursAt(ab, needle, 0);
        assert Count(a[1..], needle) == 0;
      }
    }
  }

  /** A seam cannot be straddled when `b` starts with a character that
      appears in the needle only at its first position. */
  lemma NoStraddleByFirst(a: string, b: string, needle: string)
    requires |b| > 0 && |needle| > 0 && b[0] !in needle[1..]
    ensures NoStraddle(a, b, needle)
  {
    forall i | 0 <= i < |a| < i + |needle|
      ensures !OccursAt(a + b, needle, i)
    {
      if i + |needle| <= |a + b| {
        var k := |a| - i;
        assert needle[1..][k - 1] == needle[k];
        assert (a + b)[i..][..|needle|][k] == b[0];
      }
    }
  }

  /** A seam cannot be straddled when `a` ends with a character that
      appears in the needle only at its last position. */
  lemma NoStraddleByLast(a: string, b: string, needle: string)
    requires |a| > 0 && |needle| > 0 && a[|a| - 1] !in needle[..|needle| - 1]
    ensures NoStraddle(a, b, needle)
  {
    forall i | 0 <= i < |a| < i + |needle|
      ensures !OccursAt(a + b, needle, i)
    {
      if i + |needle| <= |a + b| {
        var k := |a| - 1 - i;
        assert needle[..|needle| - 1][k] == needle[k];
        assert (a + b)[i..][..|needle|][k] == a[|a| - 1];
      }
    }
  }

  /** Counts add up when the seam falls after a character that ends the
      needle and occurs nowhere else in it, or before one that starts it. */
  lemma CountConcatAt(a: string, b: string, needle: string)
    requires |needle| > 0
    requires (|b| > 0 && b[0] !in needle[1..]) || (|a| > 0 && a[|a| - 1] !in needle[..|needle| - 1])
    ensures Count(a + b, needle) == Count(a, needle) + Count(b, needle)
  {
    if |b| > 0 && b[0] !in needle[1..] {
      NoStraddleByFirst(a, b, needle);
    } else {
      NoStraddleByLast(a, b, needle);
    }
    CountConcat(a, b, needle);
  }

  /** A string without the needle's first character holds no occurrence. */
  lemma {:induction false} CountWithoutFirstChar(s: string, needle: string)
    requires |needle| > 0 && needle[0] !in s
    ensures Count(s, needle) == 0
    decreases |s|
  {
    if |s| >= |needle| {
      assert s[..|needle|][0] == s[0];
      CountWithoutFirstChar(s[1..], needle);
    }
  }

  /** A needle holding a character that `s` lacks does not occur in `s`. */
  lemma CountWithoutChar(s: string, needle: string, c: char)
    requires |needle| > 0 && c in needle && c !in s
    ensures Count(s, needle) == 0
  {
    var j :| 0 <= j < |needle| && needle[j] == c;
    forall i ensures !OccursAt(s, needle, i) {
      if 0 <= i && i + |needle| <= |s| {
        assert s[i..][..|needle|][j] == s[i + j];
      }
    }
    CountZeroIff(s, needle);
  }

  /** A needle that begins with a pattern absent from `s` is absent too. */
  lemma CountPrefixAbsent(s: string, prefix: string, needle: string)
    requires 0 < |prefix| <= |needle| && needle[..|prefix|] == prefix
    requires Count(s, prefix) == 0
    ensures Count(s, needle) == 0
  {
    CountZeroIff(s, prefix);
    CountZeroIff(s, needle);
    forall i | OccursAt(s, needle, i) ensures OccursAt(s, prefix, i) {
      assert s[i..][..|prefix|] == needle[..|prefix|];
    }
  }

  lemma SeqAssoc(s: string, a: string, b: string, c: string)
    ensures s + a + b + c == s + (a + b + c)
  {
  }

  /** When the needle's first character can only be found at the start of
      `s`, the needle occurs once if `s` starts with it and never otherwise. */
  lemma CountLeadingOnly(s: string, needle: string)
    requires |s| > 0 && |needle| > 0 && needle[0] !in s[1..]
    ensures Count(s, needle) == (if StartsWith(s, needle) then 1 else 0)
  {
    CountWithoutFirstChar(s[1..], needle);
  }

  /** Dropping a prefix in which no occurrence starts leaves the count unchanged. */
  lemma {:induction false} CountSkip(s: string, needle: string, k: nat)
    requires |needle| > 0 && k <= |s|
    requires forall j :: 0 <= j < k ==> !OccursAt(s, needle, j)
    ensures Count(s, needle) == Count(s[k..], needle)
    decreases k
  {
    if k > 0 {
      assert s[0..] == s;
      assert !OccursAt(s, needle, 0);
      forall j | 0 <= j < k - 1
        ensures !OccursAt(s[1..], needle, j)
      {
        OccursAtTail(s, needle, j);
      }
      CountSkip(s[1..], needle, k - 1);
      assert s[1..][k - 1..] == s[k..];
    }
  }

  /** For a needle that cannot overlap itself, Python's non-overlapping
      count agrees with the count at every index. */
  lemma {:induction false} CountNonOverlappingIsCount(s: string, needle: string)
    requires LastCharUnique(needle)
    ensures CountNonOverlapping(s, needle) == Count(s, needle)
    decreases |s|
  {
    var n := |needle|;
    if |s| >= n {
      if StartsWith(s, needle) {
        var t := s[1..];
        forall j | 0 <= j < n - 1
          ensures !OccursAt(t, needle, j)
        {
          var m := j + 1;
          if m + n <= |s| {
            assert t[j..] == s[m..];
            assert needle[..n - 1][n - 1 - m] == needle[n - 1 - m];
            assert s[..n][n - 1] == needle[n - 1];
            assert s[m..][..n][n - 1 - m] == s[n - 1];
          }
        }
        CountSkip(t, needle, n - 1);
        assert t[n - 1..] == s[n..];
        CountNonOverlappingIsCount(s[n..], needle);
      } else {
        CountNonOverlappingIsCount(s[1..], needle);
      }
    }
  }

  /** The strings, one after the other. */
  function Concat(parts: seq<string>): string {
    if |parts| == 0 then "" else parts[0] + Concat(parts[1..])
  }

  /** Concatenating two runs of strings concatenates their concatenations. */
  lemma {:induction false} ConcatAppend(a: seq<string>, b: seq<string>)
    ensures Concat(a + b) == Concat(a) + Concat(b)
  {
    if |a| > 0 {
      assert (a + b)[1..] == a[1..] + b;
      ConcatAppend(a[1..], b);
    } else {
      assert a + b == b;
    }
  }
}

=== FILE: truncation.dfy ===
/** The answer a model gives when it runs out of tokens inside the block the
    prompt asks for: a frame with a title and a key message, a block with a
    heading, a list with one item that is closed, and then nothing. The
    lemmas compare the repairer as written with the repairer as intended on
    every answer of that shape whose chatter, title, key message, heading
    and item hold no backslash. */
module Truncation {
  import opened Text
  import opened Fragment

  /** Free of backslashes, so free of tags. */
  predicate Plain(s: string) {
    '\\' !in s
  }

  /** The truncated slide: `\begin{frame}{title}\textbf{key}\begin{block}{heading}
      \begin{itemize}\item item\end{itemize}`, with no closing for the block
      or the frame. */
  function Truncated(title: string, key: string, heading: string, item: string): string {
    SlideHead(title, key) + SlideRest(heading, item)
  }

  /** The frame's opening, title and key message. */
  function SlideHead(title: string, key: string): string {
    Begin(Frame, Single) + ("{" + title + "}") + ("\\textbf{" + key + "}")
  }

  /** The block with its heading and a closed one-item list. */
  function SlideRest(heading: string, item: string): string {
    Begin(Block, Single) + ("{" + heading + "}")
    + Begin(Itemize, Single) + ("\\item " + item) + End(Itemize, Single)
  }

  /** A needle of this model: a single-backslash tag, or the doubled
      backslash. */
  predicate Needle(n: string) {
    TagLike(n) || n == RawSlashes
  }

  lemma TagNeedles(t: Tag)
    ensures Needle(Begin(t, Single)) && Needle(End(t, Single)) && Needle(RawSlashes)
  {
    TagsAreTagLike(t);
  }

  /** A plain piece, or a piece whose only backslash starts a word that no
      needle starts with, holds no needle. */
  lemma FillerCounts(title: string, key: string, item: string, n: string)
    requires Plain(title) && Plain(key) && Plain(item) && Needle(n)
    requires n[1] in "be\\"
    ensures Count("{" + title + "}", n) == 0
    ensures Count("\\textbf{" + key + "}", n) == 0
    ensures Count("\\item " + item, n) == 0
  {
    CountWithoutFirstChar("{" + title + "}", n);
    var p := "\\textbf{" + key + "}";
    var q := "\\item " + item;
    assert p[1..] == "textbf{" + key + "}";
    assert q[1..] == "item " + item;
    CountLeadingOnly(p, n);
    CountLeadingOnly(q, n);
    DifferAt(p, n, 1);
    DifferAt(q, n, 1);
  }

  /** Counting a needle over the head of the slide: only the frame's
      opening tag can hold one. */
  lemma HeadPieces(title: string, key: string, n: string)
    requires Plain(title) && Plain(key) && Needle(n)
    requires n[1] in "be\\"
    ensures Count(SlideHead(title, key), n) == Count(Begin(Frame, Single), n)
  {
    var q1 := "{" + title + "}";
    var q2 := "\\textbf{" + key + "}";
    var p1 := Begin(Frame, Single);
    var p2 := p1 + q1;
    NeedleEnds(Frame, Single);
    NeedleShape(Frame, Single);
    assert p1[|p1| - 1] == '}' && p2[|p2| - 1] == '}';
    CountConcatAt(p1, q1, n);
    CountConcatAt(p2, q2, n);
    FillerCounts(title, key, "", n);
  }

  /** Counting a needle over the rest of the slide: only the block's and the
      list's tags can hold one. */
  lemma RestPieces(heading: string, item: string, n: string)
    requires Plain(heading) && Plain(item) && Needle(n)
    requires n[1] in "be\\"
    ensures Count(SlideRest(heading, item), n)
            == Count(Begin(Block, Single), n) + Count(Begin(Itemize, Single), n) + Count(End(Itemize, Single), n)
  {
    var q3 := "{" + heading + "}";
    var q4 := "\\item " + item;
    var p4 := Begin(Block, Single);
    var p5 := p4 + q3;
    var p6 := p5 + Begin(Itemize, Single);
    var p7 := p6 + q4;
    NeedleEnds(Block, Single);
    NeedleEnds(Itemize, Single);
    NeedleShape(Block, Single);
    NeedleShape(Itemize, Single);
    assert p4[|p4| - 1] == '}' && p5[|p5| - 1] == '}' && p6[|p6| - 1] == '}';
    assert p7[|p7| - 1] != '\\';
    CountConcatAt(p4, q3, n);
    CountConcatAt(p5, Begin(Itemize, Single), n);
    CountConcatAt(p6, q4, n);
    CountConcatAt(p7, End(Itemize, Single), n);
    FillerCounts(heading, "", item, n);
  }

  /** Counting a needle over the whole truncated slide: only the four tags
      can hold one. */
  lemma TruncatedPieces(title: string, key: string, heading: string, item: string, n: string)
    requires Plain(title) && Plain(key) && Plain(heading) && Plain(item) && Needle(n)
    requires n[1] in "be\\"
    ensures Count(Truncated(title, key, heading, item), n)
            == Count(Begin(Frame, Single), n) + Count(Begin(Block, Single), n)
               + Count(Begin(Itemize, Single), n) + Count(End(Itemize, Single), n)
  {
    var h := SlideHead(title, key);
    var r := SlideRest(heading, item);
    NeedleShape(Block, Single);
    assert h[|h| - 1] == '}' && r[0] == '\\';
    CountConcatAt(h, r, n);
    HeadPieces(title, key, n);
    RestPieces(heading, item, n);
  }

  /** A tag: a backslash, a word without backslashes, and a closing brace
      found nowhere earlier. */
  predicate TagLike(s: string) {
    && |s| > 1 && s[0] == '\\' && '\\' !in s[1..]
    && s[|s| - 1] == '}' && '}' !in s[..|s| - 1]
  }

  lemma TagsAreTagLike(t: Tag)
    ensures TagLike(Begin(t, Single)) && TagLike(End(t, Single))
  {
    NeedleShape(t, Single);
    BeginShape(t);
    NeedleEnds(t, Single);
    match t
    case Frame =>
    case Block =>
    case Itemize =>
  }

  /** A prefix ending in a brace, shorter than the text, puts a brace before
      the text's last character. */
  lemma PrefixBrace(tag: string, n: string)
    requires |n| > 0 && n[|n| - 1] == '}'
    ensures StartsWith(tag, n) && |n| < |tag| ==> '}' in tag[..|tag| - 1]
  {
    if StartsWith(tag, n) && |n| < |tag| {
      assert tag[..|n|][|n| - 1] == '}';
      assert tag[..|tag| - 1][|n| - 1] == '}';
    }
  }

  /** A tag holds another tag exactly when the two are the same. */
  lemma TagCount(tag: string, n: string)
    requires TagLike(tag) && TagLike(n)
    ensures Count(tag, n) == (if tag == n then 1 else 0)
  {
    CountLeadingOnly(tag, n);
    PrefixBrace(tag, n);
    if |n| == |tag| && StartsWith(tag, n) {
      assert tag[..|n|] == tag;
    }
  }

  /** Different environments have different tags, and no opening tag is a
      closing tag. */
  lemma TagsDistinct(t: Tag, u: Tag)
    ensures Begin(t, Single) == Begin(u, Single) <==> t == u
    ensures Begin(t, Single) != End(u, Single)
  {
    BeginShape(t);
    EndShape(u);
    if t != u {
      assert Begin(t, Single)[7] != Begin(u, Single)[7];
    }
  }

  /** Of the four tags in the truncated slide, exactly one is the opening
      tag `n` of `u`.

      This lemma and the counting lemmas below take the needle as a
      parameter `n`, pinned by `requires`, instead of writing
      `Begin(u, Single)` in the `ensures`: with `n` opaque, the solver
      leaves the tag literals folded, and the proofs stay cheap. */
  lemma OpeningAmongTags(u: Tag, n: string)
    requires n == Begin(u, Single)
    ensures Count(Begin(Frame, Single), n) + Count(Begin(Block, Single), n)
            + Count(Begin(Itemize, Single), n) + Count(End(Itemize, Single), n) == 1
  {
    TagsAreTagLike(u);
    TagsAreTagLike(Frame);
    TagsAreTagLike(Block);
    TagsAreTagLike(Itemize);
    TagCount(Begin(Frame, Single), n);
    TagCount(Begin(Block, Single), n);
    TagCount(Begin(Itemize, Single), n);
    TagCount(End(Itemize, Single), n);
    TagsDistinct(Frame, u);
    TagsDistinct(Block, u);
    TagsDistinct(Itemize, u);
    TagsDistinct(u, Itemize);
  }

  /** Of the four tags in the truncated slide, only the list's closing is a
      closing tag `n`, and only when `u` is the list. */
  lemma ClosingAmongTags(u: Tag, n: string)
    requires n == End(u, Single)
    ensures Count(Begin(Frame, Single), n) + Count(Begin(Block, Single), n)
            + Count(Begin(Itemize, Single), n) + Count(End(Itemize, Single), n)
            == (if u == Itemize then 1 else 0)
  {
    TagsAreTagLike(u);
    TagsAreTagLike(Frame);
    TagsAreTagLike(Block);
    TagsAreTagLike(Itemize);
    TagCount(Begin(Frame, Single), n);
    TagCount(Begin(Block, Single), n);
    TagCount(Begin(Itemize, Single), n);
    TagCount(End(Itemize, Single), n);
    TagsDistinct(Frame, u);
    TagsDistinct(Block, u);
    TagsDistinct(Itemize, u);
    EndsInjective(Itemize, u);
  }

  /** The truncated slide opens each environment once; `n` names the
      opening needle of `u`. */
  lemma TruncatedOpens(title: string, key: string, heading: string, item: string, u: Tag, n: string)
    requires Plain(title) && Plain(key) && Plain(heading) && Plain(item)
    requires n == Begin(u, Single)
    ensures Count(Truncated(title, key, heading, item), n) == 1
  {
    TagNeedles(u);
    BeginShape(u);
    TruncatedPieces(title, key, heading, item, n);
    OpeningAmongTags(u, n);
  }

  /** The truncated slide closes only the list; `n` names the closing
      needle of `u`. */
  lemma TruncatedCloses(title: string, key: string, heading: string, item: string, u: Tag, n: string)
    requires Plain(title) && Plain(key) && Plain(heading) && Plain(item)
    requires n == End(u, Single)
    ensures Count(Truncated(title, key, heading, item), n) == (if u == Itemize then 1 else 0)
  {
    TagNeedles(u);
    EndShape(u);
    TruncatedPieces(title, key, heading, item, n);
    ClosingAmongTags(u, n);
  }

  lemma EndsInjective(t: Tag, u: Tag)
    ensures End(t, Single) == End(u, Single) <==> t == u
  {
    if t != u {
      EndsDiffer(t, u);
    }
  }

  /** The truncated slide, counted as Python counts, opens each environment
      once and closes only the list. */
  lemma TruncatedCounts(title: string, key: string, heading: string, item: string, u: Tag)
    requires Plain(title) && Plain(key) && Plain(heading) && Plain(item)
    ensures Opens(Truncated(title, key, heading, item), u, Single) == 1
    ensures Closes(Truncated(title, key, heading, item), u, Single) == (if u == Itemize then 1 else 0)
  {
    TruncatedOpens(title, key, heading, item, u, Begin(u, Single));
    TruncatedCloses(title, key, heading, item, u, End(u, Single));
    OpensCloses(Truncated(title, key, heading, item), u, Single);
  }

  /** A tag whose only backslash is its first character holds no doubled
      backslash. */
  lemma TagHasNoDoubled(tag: string)
    requires |tag| > 1 && tag[0] == '\\' && '\\' !in tag[1..]
    ensures Count(tag, RawSlashes) == 0
  {
    assert tag[1..][0] == tag[1];
    DifferAt(tag, RawSlashes, 1);
    CountLeadingOnly(tag, RawSlashes);
  }

  /** The single-backslash tags hold no doubled backslash. */
  lemma TagsHaveNoDoubled(t: Tag)
    ensures Count(Begin(t, Single), RawSlashes) == 0
    ensures Count(End(t, Single), RawSlashes) == 0
  {
    NeedleShape(t, Single);
    BeginShape(t);
    TagHasNoDoubled(Begin(t, Single));
    TagHasNoDoubled(End(t, Single));
  }

  /** None of the four tags in the truncated slide holds a doubled backslash. */
  lemma DoubledAmongTags()
    ensures Count(Begin(Frame, Single), RawSlashes) + Count(Begin(Block, Single), RawSlashes)
            + Count(Begin(Itemize, Single), RawSlashes) + Count(End(Itemize, Single), RawSlashes) == 0
  {
    TagsHaveNoDoubled(Frame);
    TagsHaveNoDoubled(Block);
    TagsHaveNoDoubled(Itemize);
  }

  /** The truncated slide holds no two backslashes in a row; `n` names
      the doubled backslash. */
  lemma TruncatedNoDoubledBackslash(title: string, key: string, heading: string, item: string, n: string)
    requires Plain(title) && Plain(key) && Plain(heading) && Plain(item)
    requires n == RawSlashes
    ensures Count(Truncated(title, key, heading, item), n) == 0
  {
    TagNeedles(Frame);
    TruncatedPieces(title, key, heading, item, n);
    DoubledAmongTags();
  }

  /** Chatter before the frame is cut away. */
  lemma TrimChatter(chatter: string, title: string, key: string, heading: string, item: string)
    requires Plain(chatter)
    ensures Trim(chatter + Truncated(title, key, heading, item)) == Truncated(title, key, heading, item)
  {
    var s := Truncated(title, key, heading, item);
    var bf := Begin(Frame, Single);
    NeedleShape(Frame, Single);
    assert s[..|bf|] == bf;
    FindAfter(chatter, s, bf);
    assert (chatter + s)[|chatter|..] == s;
  }

  /** An answer whose trimmed text `t` opens a frame, a block and a list
      and closes only the list is repaired, as intended, by closing the block
      and then the frame. */
  lemma RepairClosesBlockAndFrame(raw: string, t: string)
    requires Trim(raw) == t
    requires Opens(t, Itemize, Single) == 1 && Closes(t, Itemize, Single) == 1
    requires Opens(t, Block, Single) == 1 && Closes(t, Block, Single) == 0
    requires Opens(t, Frame, Single) == 1 && Closes(t, Frame, Single) == 0
    ensures Repair(raw) == t + "\n\\end{block}\n\\end{frame}"
    ensures IsSlideComplete(Repair(raw))
  {
    RepairAppendsBlockAndFrame(raw, t);
    ClosingsBlockFrame();
    forall u: Tag
      ensures Closes(t, u, Single) <= Opens(t, u, Single) <= Closes(t, u, Single) + 1
    {
    }
    RepairBalances(raw);
  }

  lemma RepairAppendsBlockAndFrame(raw: string, t: string)
    requires Trim(raw) == t
    requires !IsOpen(t, Itemize, Single) && IsOpen(t, Block, Single) && IsOpen(t, Frame, Single)
    ensures Repair(raw) == t + Closings(false, true, true)
  {
    assert !IsSlideComplete(t);
    RepairWithAppends(raw, Single);
  }

  lemma ClosingsBlockFrame()
    ensures Closings(false, true, true) == "\n\\end{block}\n\\end{frame}"
  {
  }

  /** As evidently intended, the repairer drops the chatter and closes the
      block and then the frame, and the result balances. */
  lemma TruncatedRepaired(chatter: string, title: string, key: string, heading: string, item: string)
    requires Plain(chatter) && Plain(title) && Plain(key) && Plain(heading) && Plain(item)
    ensures Repair(chatter + Truncated(title, key, heading, item))
            == Truncated(title, key, heading, item) + "\n\\end{block}\n\\end{frame}"
    ensures IsSlideComplete(Repair(chatter + Truncated(title, key, heading, item)))
  {
    var t := Truncated(title, key, heading, item);
    TrimChatter(chatter, title, key, heading, item);
    TruncatedCounts(title, key, heading, item, Frame);
    TruncatedCounts(title, key, heading, item, Block);
    TruncatedCounts(title, key, heading, item, Itemize);
    RepairClosesBlockAndFrame(chatter + t, t);
  }

  /** As written, the repairer leaves the same answer unbalanced: the
      completeness check sees the open block and frame, but the completion
      step looks for doubled backslashes and appends nothing. */
  lemma TruncatedAsWritten(chatter: string, title: string, key: string, heading: string, item: string)
    requires Plain(chatter) && Plain(title) && Plain(key) && Plain(heading) && Plain(item)
    ensures RepairAsWritten(chatter + Truncated(title, key, heading, item)) == Truncated(title, key, heading, item)
    ensures !IsSlideComplete(RepairAsWritten(chatter + Truncated(title, key, heading, item)))
  {
    var raw := chatter + Truncated(title, key, heading, item);
    TrimChatter(chatter, title, key, heading, item);
    TruncatedCounts(title, key, heading, item, Frame);
    TruncatedNoDoubledBackslash(title, key, heading, item, RawSlashes);
    RepairAsWrittenIgnoresLatex(raw);
  }
}
